=== FILE: README.md ===
# Auto Login for EasiNote — a Dafny model

A model of the command-line tool that logs a classroom whiteboard
application (EasiNote, "希沃白板") into an account by desktop automation. The
model covers both revisions of the script and the typed configuration
module:

- **main.py**:
  - start-up: load the dictionary configuration, bootstrap a missing file,
    choose the log level, consume the skip-once flag;
  - the `skip` and `login` commands;
  - the warning dialog's countdown;
  - `restart_easinote` (kill command, helper kill, launch line);
  - the `login` action sequence with its template-name suffix, display
    scale and fallback search;
  - the `action` retry with its stop limit of `max_retries + 1`;
  - the exit code of the whole program.
- **auto_login_for_easinote.py** (the older script): its `restart_easinote`,
  its `login` (other templates, other error re-raising), its two-try retry,
  and how it passes the `easinote` table to the restart.
- **config.py**: the typed configuration models with their defaults and
  range constraints, validation of a decoded document, `Config.load`, and
  the auto-save mechanism (`save`, `__setattr__`, `_bind_children`).

The desktop is modelled as data. A screen is an oracle from template names
to `Found(center) | Missing | Raised`, where `Missing` means the search
returned nothing and `Raised` means it raised an image-not-found error.
Every effect (click, hotkey, key press, typing, template search, window
focus, shell command, process launch) is an `Event`, and each operation
returns the sequence of events it emits together with its outcome. The
registry lookup, the user's press on the warning dialog and the screen seen
by each attempt are inputs (`Automation.World`).

Modules, one file each: `Wrappers`, `Screen`, `LoginFlow` (shared login
sequence, `Variant = Current | Legacy`), `Machine` (an independent state
machine for the login, proved equal to `LoginFlow.Login`), `Retrying`,
`Process`, `Json`, `Startup`, `Countdown`, `Automation`, `LegacyArgs`,
`Settings`, `AutoSave`, `ConfigFile`.

Three behaviours of the code are worth stating up front:

- main.py gives missing keys no defaults. A key that start-up or the
  command reads directly raises and ends the run. A key read inside
  `action` fails that attempt, and the attempt is retried.
- The results of the operating system calls in main.py's restart are not
  checked, so there is no "process not terminated" or "process not
  launched" outcome. The restart fails only on a missing key, as above.
- Start-up consumes the skip-once flag before any command runs. A second
  `skip` therefore clears the flag the first one set
  (`Automation.SkipTwiceCancels`).

## Model

| member | source | states |
|---|---|---|
| `LoginFlow.Scale` | main.py:298 | the display scale is 2 exactly in 4K mode and 1 otherwise |
| `LoginFlow.Suffix` | main.py:293-297 | the image suffix is one of four strings; it starts with "_direct" exactly for direct login and ends with "_4k" exactly in 4K mode |
| `LoginFlow.SuffixRoundTrip` | main.py:293-297 | the suffix determines both switches, and every well-formed suffix comes from some pair of switches |
| `LoginFlow.CurrentImages` | main.py:292-303 | the three templates of main.py are different files, each named by its base name, the suffix and ".png" |
| `LoginFlow.TemplateNamesDetermineSwitches` | main.py:292-303 | the button template names both switches: different switch settings never share a button template, so every mode needs its own resource images |
| `LoginFlow.LegacyImages` | auto_login_for_easinote.py:117-129 | the older script picks three different templates by 4K mode alone |
| `LoginFlow.LegacyNamesNotCurrent` | auto_login_for_easinote.py:117-129 | none of the older script's three templates is any of main.py's templates, whatever the switches |
| `LoginFlow.AnchorOf` | main.py:315-328 | the form is measured from the primary button if found, else from its selected variant; there is no anchor exactly when neither is found |
| `LoginFlow.ButtonError` | auto_login_for_easinote.py:149-156 | on a double miss, main.py re-raises the second search's error; the older script re-raises the first search's error unless the second search itself raised |
| `LoginFlow.Login` | main.py:287-358 | a login succeeds exactly when an anchor and the checkbox are found; otherwise it fails with the button error or the checkbox search's error; it never launches a process |
| `LoginFlow.LoginActions` | main.py:305-358 | the action order: optional enter click, button search, its click or the fallback search, then, below an anchor, credentials at +70 and +134, checkbox search, checkbox click and submit at +198; nothing is typed without an anchor and nothing follows a failed search |
| `LoginFlow.Form` | main.py:330-358 | after the anchor: six credential actions, the checkbox search, then either a failure with nothing further, or the checkbox click and the submit click as the last two actions |
| `LoginFlow.VariantsDifferOnlyInButtonError` | auto_login_for_easinote.py:112-186 | with the same templates, the two scripts' logins emit the same actions; their outcomes differ only on a double button miss whose second search did not raise |
| `LoginFlow.LegacyDirectlyOnlySkipsEnter` | auto_login_for_easinote.py:117-137 | in the older script, logging in directly only leaves out the enter click: the templates, every later action and the outcome are unchanged |
| `Machine.Next` | main.py:313-328 | every transition lowers the rank of the state, and the fallback search never clicks |
| `Machine.MachineMatchesLogin` | main.py:287-358 | the state machine (enter, locate primary, locate fallback, credentials, locate checkbox, submit) emits the same actions and reaches the same outcome as `Login` on every input |
| `Retrying.Budget` | main.py:361-362 | a stop limit below 1 still allows one attempt; otherwise the limit is the attempt count |
| `Retrying.RetryFrom` | main.py:361-365 | retrying from attempt i makes at least one more attempt and stays within the budget; the result is the last attempt's, all earlier ones failed, and a failure means the budget is spent |
| `Retrying.Retry` | main.py:361-365 | attempts run in order until the first success or the budget; it fails exactly when the whole budget was spent on failing attempts; the trace is the attempts' traces in order |
| `Retrying.TracesLaunches` | main.py:366-368 | when each attempt launches once, the retry launches once per attempt: every retry is a full restart |
| `Retrying.ExhaustedRetry` | main.py:361-368 | attempts that all fail, each after one launch, make the retry spend its whole budget, fail, and launch once per attempt |
| `Retrying.TracesSplit` | main.py:361-368 | the actions of attempt j appear in the wrapper's trace after those of every earlier attempt and before those of every later one |
| `Retrying.TwoTries` | auto_login_for_easinote.py:189 | the two-try decorator makes one or two attempts and fails exactly when both fail |
| `Process.ResolvePath` | main.py:233-245 | a configured path other than "auto" is used as is; "auto" takes the registry answer, or the fixed default path when the lookup fails |
| `Process.KillCommand` | main.py:247-249 | the termination command ends with the process name |
| `Process.KillCommandRoundTrip` | main.py:247-249 | the command names exactly the configured process and carries the echo-off prefix exactly when the level is neither DEBUG nor INFO |
| `Process.Restart` | main.py:228-264 | the restart emits the kill first, the helper kill exactly when configured, and the launch of the resolved path with its arguments last; it launches exactly once |
| `Process.LegacyRestart` | auto_login_for_easinote.py:94-109 | the older restart kills without echo prefix and launches the program path alone, once |
| `Process.LegacyRestartIgnoresArgs` | auto_login_for_easinote.py:94-109 | the older restart does not use its launch arguments |
| `Json.AsInt` | main.py:362 | in arithmetic and comparisons, integers count as themselves and booleans as 0 and 1; anything else raises |
| `Json.Str` | main.py:249-263 | an f-string renders a string as itself, None, True and False as those words, and an integer as the decimal text that reads back as its value, with a minus sign exactly when negative |
| `Json.IntRendersAsDecimal` | main.py:249-263 | an integer renders as an optional minus sign followed by decimal digits only, with no leading zero unless the value is zero |
| `Json.Digits` | main.py:249-263 | an integer's decimal text has no leading zero and reads back as the integer |
| `Startup.Upper` | main.py:56 | upper-casing keeps the length, maps a-z to A-Z and leaves every other character alone |
| `Startup.LevelOf` | main.py:55-60 | the logger level for a name: the eight names of the logging library in any case; any other name falls back to WARNING |
| `Startup.LoadConfig` | main.py:42-71 | a missing file is bootstrapped and the run ends; an unparsable or unreadable file crashes; a set skip flag is persisted as false, every other key unchanged, and the run ends; otherwise the configuration and its level are handed on |
| `Startup.Skip` | main.py:411-417 | `skip` writes the configuration with the flag set and every other key unchanged |
| `Startup.SkipIsConsumedOnce` | main.py:62-68 | after `skip`, the next load consumes the flag and ends the run; the load after that proceeds with the same keys and level |
| `Startup.BootstrapAsWritten` | main.py:44-49 | the bootstrap file as written is not a JSON object |
| `Startup.BootstrapAsWrittenCrashes` | main.py:44-56 | every start after the as-written bootstrap crashes |
| `Startup.DefaultDocument` | main.py:44-49 | the corrected bootstrap file is an object the loader accepts, with the skip flag off |
| `Startup.DefaultDocumentLoads` | main.py:51-71 | the corrected bootstrap file loads, at the WARNING level |
| `Countdown.Effective` | main.py:101-104 | a positive configured timeout is used as is, anything else becomes 15 |
| `Countdown.Shown` | main.py:106-110 | left alone, the dialog shows the timeout, then one second fewer at each update, down to 1: update `i` shows the timeout minus `i` |
| `Countdown.RunDialog` | main.py:106-131 | without a press in time every second from the timeout down to 1 is shown and OK is pressed automatically; a press in time closes the dialog with that button after that update; each update shows one second fewer |
| `Automation.DescriptorOf` | main.py:228-263 | the `easinote` entry is accepted exactly when it is an object with only path, process_name and args keys and scalar values; absent keys take the keyword defaults (an empty object gives the defaults), given values are rendered as Python's `str` does, and only the string "auto" asks for the registry lookup |
| `Automation.Action` | main.py:366-377 | an attempt kills first, launches at most once, and succeeds only if every key it reads is present; with all keys it is the restart, the window focus and the login, and succeeds exactly when the login does |
| `Automation.CmdLogin` | main.py:380-403 | a missing warning or banner switch raises before any restart; a cancelled warning ends the run with exit 0 before any restart; otherwise the retry of `action` runs at least once within its budget and the run exits 0 exactly when the retry succeeds |
| `Automation.RunProgram` | main.py:42-448 | the program exits 0 or 1 and writes at most one file; a missing file is bootstrapped and an unreadable one crashes; a consumed skip flag ends every command; an unusable `max_retries` ends every run with a failure before any command; with a usable one, `login` is `cmd_login` with stop limit `max_retries + 1`, `skip` writes the flag, and only `login` acts on the desktop |
| `Automation.FailingRetry` | main.py:361-377 | with every login failing, the retry of `action` makes max(1, max_retries + 1) attempts and launches once per attempt |
| `Automation.FailedAction` | main.py:366-377 | an action whose keys are all present and whose login fails fails after exactly one launch |
| `Automation.AlwaysFailingLogin` | main.py:361-403 | with the warning off and every login failing, `login` makes max(1, max_retries + 1) full restarts and exits with a failure code |
| `Automation.SucceededAction` | main.py:366-377 | an action whose keys are all present and whose login succeeds succeeds after exactly one launch |
| `Automation.FirstLoginSucceeds` | main.py:361-403 | with the warning off, a login that succeeds on the first attempt makes one attempt, restarts the application once, and exits 0 |
| `Automation.SkipThenLogin` | main.py:411-417 | `skip` then `login`: the login run clears the flag in the file and exits 0 without acting; the next load proceeds with the original configuration, flag cleared, at the original level |
| `Automation.SkipTwiceCancels` | main.py:62-68 | two `skip` runs in a row leave the flag cleared |
| `Automation.LegacyAttempt` | auto_login_for_easinote.py:213-219 | an attempt of the older script kills the configured process, launches the program path, and succeeds exactly when its login does |
| `Automation.LegacyMain` | auto_login_for_easinote.py:189-222 | the older script makes one or two attempts, each a full restart; it returns 0 on success, and fails exactly when both attempts fail |
| `LegacyArgs.SpreadAsWritten` | auto_login_for_easinote.py:213 | unpacking the table fills program path, process name and arguments with its distinct keys in order of first occurrence; no key or more than three distinct keys raises |
| `LegacyArgs.Distinct` | auto_login_for_easinote.py:44 | the dictionary built from the file holds each key once: the same keys, no repeats, the first key first, and a table without repeats unchanged |
| `LegacyArgs.DistinctOrder` | auto_login_for_easinote.py:44 | the dictionary keeps its keys in the order of their first occurrences |
| `LegacyArgs.RepeatedKeyPassedOnce` | auto_login_for_easinote.py:213 | a table holding `path` twice passes it once: the restart terminates the default process and launches "path" |
| `LegacyArgs.SpreadIgnoresValues` | auto_login_for_easinote.py:213 | the configured values play no part: tables with the same keys restart alike |
| `LegacyArgs.DefaultTableRestartsKeyNames` | auto_login_for_easinote.py:213 | with the default table's keys, the restart kills a process named "process_name" and launches "path", whatever the values |
| `LegacyArgs.Lookup` | auto_login_for_easinote.py:44 | a key's value is the one of its last pair, and there is none exactly when no pair has the key |
| `LegacyArgs.ByName` | auto_login_for_easinote.py:94 | read by name, the path is the table's value, and the process name and arguments are the table's or the defaults; a missing path or an unknown key raises |
| `LegacyArgs.ByNameUsesValues` | auto_login_for_easinote.py:94-109 | read by name, the default table restarts the configured process from the configured path |
| `Settings.Defaults` | config.py:53-95 | the all-defaults configuration is valid and has the documented default values |
| `Settings.Field` | config.py:55 | an absent field takes its default, an acceptable value is kept, a mistyped or out-of-range value fails |
| `Settings.ValidateWarning` | config.py:53-55 | a warning section is accepted exactly when its values have the right types and the timeout is within 5..300; an accepted section keeps every given value and defaults the rest |
| `Settings.ValidateBanner` | config.py:58-61 | a banner section is accepted exactly when its values have the right types; an accepted section keeps every given value and defaults the rest |
| `Settings.ValidateEasiNote` | config.py:64-67 | an application section is accepted exactly when its values are strings; an accepted section keeps every given value and defaults the rest |
| `Settings.ValidateTimeouts` | config.py:70-74 | a timeout section is accepted exactly when every settle time is within 1..30; an accepted section keeps every given value and defaults the rest |
| `Settings.ValidateLogin` | config.py:77-83 | a login section is accepted exactly when its switches are booleans and its nested sections are acceptable; an accepted section keeps every given value and defaults the rest |
| `Settings.ValidateApp` | config.py:86-88 | an app section is accepted exactly when retries are within 1..10 and the level is one of the five names; an accepted section keeps every given value and defaults the rest |
| `Settings.Nested` | config.py:82-95 | an absent nested model takes the all-defaults model; a given one is validated |
| `Settings.Validate` | config.py:91-95 | a document is accepted exactly when every given value is acceptable; an accepted configuration meets all constraints and equals the field-by-field reading of the document: every given value kept, every absent field and section defaulted |
| `Settings.DumpRoundTrip` | config.py:36-37 | a saved configuration loads back as itself when valid; an invalid one, which an unvalidated field assignment can produce, is saved but rejected by the next load |
| `Settings.EmptyDocumentGivesDefaults` | config.py:91-95 | an empty document gives the default configuration |
| `Settings.PartialSectionKeepsGivenValue` | config.py:86-95 | `{"app": {"max_retries": 5}}` gives five retries at the WARNING level and the defaults everywhere else |
| `Settings.RejectsOutOfRange` | config.py:55 | a warning timeout below 5 or above 300 is rejected |
| `AutoSave.Unbound` | config.py:27-28 | freshly built models have no parent and no file |
| `AutoSave.FindRoot` | config.py:32-34 | climbing the parent links ends at the first enclosing model without a parent: every model passed on the way has one |
| `AutoSave.FindRootOfBound` | config.py:32-34 | in a fully bound tree, climbing from any model reaches the root |
| `AutoSave.Save` | config.py:30-37 | a save writes the document of the root reached from the model, to that root's file, and nothing when the root has no file |
| `AutoSave.SetAttr` | config.py:39-42 | assigning a public name that is not a field of the model raises and saves nothing; assigning a field saves from that model; a name starting with an underscore saves nothing; only the assigned model changes |
| `AutoSave.Bind` | config.py:44-50 | binding gives every model nested inside, at any depth, its owner as parent and the binding model's file, and changes nothing else |
| `AutoSave.BindEach` | config.py:46-50 | binding the first n children, in field order, binds exactly their subtrees |
| `AutoSave.BindRoot` | config.py:110-111 | binding the root reaches every nested model |
| `ConfigFile.Load` | config.py:97-112 | an existing non-empty file is parsed and validated, and failure exits with code 1; otherwise the defaults are used; the loaded tree has the file at its root and is bound |
| `ConfigFile.Bound` | config.py:110-111 | after load, the root holds the file and every nested model has its owner as parent and the same file |
| `ConfigFile.LoadedTreeSavesToFile` | config.py:30-37 | after load, saving from any model writes the root's document to the configuration file |
| `ConfigFile.AssignmentAfterLoad` | config.py:39-42 | after load, assigning a field of any model writes the whole configuration to the file; a private name writes nothing; a public name that is no field raises and writes nothing |
| `ConfigFile.UnboundSavesNothing` | config.py:35 | before binding nothing is saved |
| `ConfigFile.SameRoot` | config.py:32-34 | changing the file of a model that has a parent changes no climb: the same root is reached, and it is never that model |
| `ConfigFile.OnlyRootFileCounts` | config.py:32-37 | changing the file of a bound nested model changes no save: only the root's file is used |

## Findings

| source | as written | input that shows it | evidently intended | confidence | as-written member | corrected member |
|---|---|---|---|---|---|---|
| main.py:44-49 | a missing configuration file is replaced by the default configuration text serialised as one JSON string | start without config.json, then start again: the second start indexes the string by "log_level" and crashes with an uncaught type error | write a configuration object the loader accepts | high, not executed | `Startup.BootstrapAsWritten` | `Startup.DefaultDocument` |
| auto_login_for_easinote.py:213 | the `easinote` table is unpacked with a single star, so its keys, not its values, become the restart's positional arguments | the table {"path": "D:\\EN\\swenlauncher.exe", "process_name": "EasiNote.exe", "args": ""} kills a process named "process_name" and launches "path" | pass the table's values by name: name the first parameter `path`, as main.py's `restart_easinote` does, and unpack with `**table` | medium, not executed | `LegacyArgs.SpreadAsWritten` | `LegacyArgs.ByName` |

`Startup.LoadConfig` bootstraps with `Startup.DefaultDocument`. The older
script's settings (`Automation.LegacySettings`) carry restart parameters in
the form `LegacyArgs.ByName` produces them.

## Left out

- Screen capture, template matching and input injection are not modelled. The screen is an oracle, and the confidence threshold of 0.8 is not modelled.
- Every sleep and fixed wait is left out, including the retry delays. Only the order of actions is modelled.
- Only the countdown arithmetic of the Qt warning dialog is modelled, not its rendering. The banner widget and its separate process are not modelled; only the presence of the banner key is checked.
- The older script's toast warning (win11toast, asyncio) is not modelled, because it is asynchronous UI.
- The registry lookup of the install path is an input (`registry: Option<string>`).
- `switch_window_by_title` is a `Focus` event only, because window enumeration is operating system I/O.
- JSON text parsing is not modelled. A file is absent, unparsable, or a decoded value.
- pydantic's type coercion is not modelled: a value either has the field's type or is `Mistyped`. Floats are not modelled.
- The argparse command line, logging output and `print` are not modelled.
- The older script reads its configuration and the debug switch inside each retry. That `load_config` writes the default text and reads the file back as JSON. It is not modelled: `LegacyMain` takes its settings as a parameter.
- The text of default_config.py is a parameter of `Startup.BootstrapAsWritten`, because only its being a string matters.
- Startup.Upper: only ASCII letters are upper-cased, while Python upper-cases all of Unicode. A level name becomes one of the logging library's names only through ASCII letters (apart from the dotless i and long s), and those two letters are not modelled.
- Automation.DescriptorOf: a list or object value in the `easinote` entry fails the attempt with no action, while main.py would render it with Python's `repr` and go on; `repr` of nested values (and the unordered keys of an object) is not modelled. Scalar values are rendered as main.py renders them.
- Automation.Action: operating system errors raised by the restart are not modelled. The shell commands are fire-and-forget in the source.
- Replacing a whole nested model by assignment is not modelled. The model covers field assignments and file assignments; re-binding a replaced model does not happen in the source either.
- `cmd_setting` is not modelled, because it is unimplemented and not reachable from the command line.

=== FILE: automation.dfy ===
/** The automation runs of both scripts: one full attempt (restart the
    application, focus its window, log in), the bounded retry around it, the
    `login` command with its warning dialog, and the whole program of
    main.py from loading the configuration to the exit code. */
module Automation {
  import opened Wrappers
  import opened Screen
  import opened Json
  import opened LoginFlow
  import opened Process
  import opened Retrying
  import opened Startup
  import opened Countdown
  import opened LegacyArgs

  datatype Command = LoginCommand(account: string, password: string) | SkipCommand | NoCommand

  /** What the surroundings answer during one run: the registry's install
      path (None when the lookup fails), the user's press on the warning
      dialog, and the screen seen by each attempt. */
  datatype World = World(registry: Option<string>, press: Option<Press>, screens: nat -> Oracle)

  /** Files written, actions emitted, attempts made and the exit code. */
  datatype RunResult = RunResult(writes: seq<JValue>, trace: seq<Event>, attempts: nat, exitCode: int)

  /** Exit code of an uncaught exception. */
  const Uncaught: int := 1

  /** The keyword arguments `**config["easinote"]` gives `restart_easinote`:
      an object whose keys are among path, process_name and args; absent
      keys take the keyword defaults. The restart only formats the values
      into its commands, so a value of another type is rendered as Python's
      `str` renders it. */
  function DescriptorOf(v: JValue): (d: Option<Descriptor>)
    ensures d.Some? <==> && v.JObj? && v.fields.Keys <= {"path", "process_name", "args"}
                         && forall k :: k in v.fields ==> Scalar(v.fields[k])
    ensures d.Some? ==> d.value.path == (if "path" in v.fields then Str(v.fields["path"]) else AutoPath)
    ensures d.Some? ==>
      d.value.processName == (if "process_name" in v.fields then Str(v.fields["process_name"]) else DefaultProcessName)
    ensures d.Some? ==> d.value.args == (if "args" in v.fields then Str(v.fields["args"]) else "")
    // only the string "auto" asks for the registry lookup
    ensures d.Some? && "path" in v.fields && !v.fields["path"].JStr? ==> d.value.path != AutoPath
    ensures v == JObj(map[]) ==> d == Some(DefaultDescriptor())
  {
    if v.JObj? && v.fields.Keys <= {"path", "process_name", "args"}
       && (forall k :: k in v.fields ==> Scalar(v.fields[k]))
    then
      var f := v.fields;
      var dflt := DefaultDescriptor();
      Some(Descriptor(
        if "path" in f then Str(f["path"]) else dflt.path,
        if "process_name" in f then Str(f["process_name"]) else dflt.processName,
        if "args" in f then Str(f["args"]) else dflt.args))
    else None
  }

  /** One call of `action` in main.py. A key it reads that is missing makes
      the attempt fail at that point, after the actions already emitted. */
  function Action(m: map<string, JValue>, level: int, registry: Option<string>,
                  account: string, password: string, screen: Oracle): (a: Attempt)
    // every attempt that gets going starts by terminating the application
    ensures a.trace != [] ==> a.trace[0].Shell?
    ensures Launches(a.trace) <= 1
    ensures a.ok ==> Launches(a.trace) == 1
    ensures a.ok ==> && EasiNoteKey in m && DescriptorOf(m[EasiNoteKey]).Some?
                     && KillAgentKey in m && FourKKey in m && DirectlyKey in m
    ensures (&& EasiNoteKey in m && DescriptorOf(m[EasiNoteKey]).Some?
             && KillAgentKey in m && FourKKey in m && DirectlyKey in m) ==>
      var restart := Restart(DescriptorOf(m[EasiNoteKey]).value, registry, level, Truthy(m[KillAgentKey]));
      var login := CurrentLogin(account, password, Truthy(m[FourKKey]), Truthy(m[DirectlyKey]), screen);
      && a.trace == restart + [Focus(WindowTitle)] + login.trace
      && (a.ok <==> login.outcome == Success)
      && Launches(a.trace) == 1
  {
    if EasiNoteKey !in m || DescriptorOf(m[EasiNoteKey]).None? then Attempt([], false)
    else
      var d := DescriptorOf(m[EasiNoteKey]).value;
      if KillAgentKey !in m then Attempt([Shell(KillCommand(level, d.processName))], false)
      else
        var restart := Restart(d, registry, level, Truthy(m[KillAgentKey]));
        var pre := restart + [Focus(WindowTitle)];
        LaunchesAppend(restart, [Focus(WindowTitle)]);
        if FourKKey !in m || DirectlyKey !in m then Attempt(pre, false)
        else
          var login := CurrentLogin(account, password, Truthy(m[FourKKey]), Truthy(m[DirectlyKey]), screen);
          LaunchesAppend(pre, login.trace);
          assert Launches(login.trace) == 0;
          Attempt(pre + login.trace, login.outcome == Success)
  }

  /** Attempt `i` of the `action` retry: the whole action against the i-th screen. */
  function Attempts(m: map<string, JValue>, level: int, account: string, password: string, world: World)
    : (run: nat -> Attempt)
    ensures forall i: nat :: run(i) == Action(m, level, world.registry, account, password, world.screens(i))
  {
    (i: nat) => Action(m, level, world.registry, account, password, world.screens(i))
  }

  /** Whether the warning dialog ends the run: it is shown when enabled, is
      skipped when its timeout cannot be compared with 0 (the error is
      caught), and cancels when the user presses Cancel in time. */
  predicate WarningCancels(m: map<string, JValue>, press: Option<Press>)
    requires ShowWarningKey in m
  {
    && Truthy(m[ShowWarningKey])
    && TimeoutKey in m && AsInt(m[TimeoutKey]).Some?
    && Closing(AsInt(m[TimeoutKey]).value, press) == Cancel
  }

  /** `cmd_login` of main.py, given the retry stop limit fixed at start-up. */
  function CmdLogin(m: map<string, JValue>, level: int, stopAfter: int, account: string, password: string,
                    world: World): (r: RunResult)
    ensures r.writes == []
    ensures r.exitCode in {0, Uncaught}
    ensures r.trace == [] ==> r.attempts == 0 || Traces(Attempts(m, level, account, password, world), 0, r.attempts) == []
    // a cancelled warning ends the run successfully before anything is restarted
    ensures ShowWarningKey in m && WarningCancels(m, world.press) ==> r == RunResult([], [], 0, 0)
    ensures r.attempts <= Budget(stopAfter)
    ensures r.attempts > 0 ==>
      var report := Retry(stopAfter, Attempts(m, level, account, password, world));
      && r.attempts == report.attempts
      && r.trace == report.trace
      && (r.exitCode == 0 <==> report.ok)
    // a missing switch raises before anything is restarted
    ensures ShowWarningKey !in m ==> r == RunResult([], [], 0, Uncaught)
    ensures ShowWarningKey in m && !WarningCancels(m, world.press) && ShowBannerKey !in m ==>
      r == RunResult([], [], 0, Uncaught)
    // otherwise the retry of `action` runs, and the exit code is its verdict
    ensures ShowWarningKey in m && !WarningCancels(m, world.press) && ShowBannerKey in m ==>
      var report := Retry(stopAfter, Attempts(m, level, account, password, world));
      && r.attempts == report.attempts >= 1
      && r.trace == report.trace
      && (r.exitCode == 0 <==> report.ok)
  {
    if ShowWarningKey !in m then RunResult([], [], 0, Uncaught)
    else if WarningCancels(m, world.press) then RunResult([], [], 0, 0)
    else if ShowBannerKey !in m then RunResult([], [], 0, Uncaught)
    else
      var report := Retry(stopAfter, Attempts(m, level, account, password, world));
      RunResult([], report.trace, report.attempts, if report.ok then 0 else Uncaught)
  }

  /** The whole program of main.py: load the configuration (which may end
      the run), fix the retry limit at `max_retries + 1`, run the command. */
  function RunProgram(file: FileState, cmd: Command, world: World): (r: RunResult)
    ensures r.exitCode in {0, Uncaught}
    ensures |r.writes| <= 1
    // only the login command acts on the desktop
    ensures r.trace != [] ==> cmd.LoginCommand?
    // a consumed skip flag ends every command before any automation
    ensures LoadConfig(file).Consumed? ==> r == RunResult([LoadConfig(file).written], [], 0, 0)
    ensures LoadConfig(file).Ready? && cmd.SkipCommand? && MaxRetriesKey in LoadConfig(file).config
            && AsInt(LoadConfig(file).config[MaxRetriesKey]).Some? ==>
      r == RunResult([Skip(LoadConfig(file).config)], [], 0, 0)
    ensures r.attempts > 0 ==>
      && LoadConfig(file).Ready?
      && MaxRetriesKey in LoadConfig(file).config
      && AsInt(LoadConfig(file).config[MaxRetriesKey]).Some?
      && r.attempts <= Budget(AsInt(LoadConfig(file).config[MaxRetriesKey]).value + 1)
    // a missing configuration is bootstrapped and the run ends
    ensures file.Absent? ==> r == RunResult([DefaultDocument()], [], 0, 0)
    ensures LoadConfig(file).Crashed? ==> r == RunResult([], [], 0, Uncaught)
    // the retry limit is computed before any command runs: an unusable `max_retries` ends every run
    ensures LoadConfig(file).Ready? && (MaxRetriesKey !in LoadConfig(file).config
                                        || AsInt(LoadConfig(file).config[MaxRetriesKey]).None?) ==>
      r == RunResult([], [], 0, Uncaught)
    ensures LoadConfig(file).Ready? && MaxRetriesKey in LoadConfig(file).config
            && AsInt(LoadConfig(file).config[MaxRetriesKey]).Some? && cmd.LoginCommand? ==>
      r == CmdLogin(LoadConfig(file).config, LoadConfig(file).level,
                    AsInt(LoadConfig(file).config[MaxRetriesKey]).value + 1, cmd.account, cmd.password, world)
    ensures LoadConfig(file).Ready? && MaxRetriesKey in LoadConfig(file).config
            && AsInt(LoadConfig(file).config[MaxRetriesKey]).Some? && cmd.NoCommand? ==>
      r == RunResult([], [], 0, 0)
  {
    match LoadConfig(file)
    case Bootstrapped(w) => RunResult([w], [], 0, 0)
    case Crashed => RunResult([], [], 0, Uncaught)
    case Consumed(w) => RunResult([w], [], 0, 0)
    case Ready(m, level) =>
      if MaxRetriesKey !in m || AsInt(m[MaxRetriesKey]).None? then RunResult([], [], 0, Uncaught)
      else
        var stopAfter := AsInt(m[MaxRetriesKey]).value + 1;
        match cmd
        case NoCommand => RunResult([], [], 0, 0)
        case SkipCommand => RunResult([Skip(m)], [], 0, 0)
        case LoginCommand(account, password) =>
          CmdLogin(m, level, stopAfter, account, password, world)
  }

  /** A configuration with every key the login command reads, the warning
      off and `max_retries` equal to `n`. */
  predicate Complete(m: map<string, JValue>, n: int)
  {
    && Readable(JObj(m)) && !Truthy(m[SkipKey])
    && MaxRetriesKey in m && m[MaxRetriesKey] == JInt(n)
    && ShowWarningKey in m && !Truthy(m[ShowWarningKey]) && ShowBannerKey in m
    && EasiNoteKey in m && DescriptorOf(m[EasiNoteKey]).Some?
    && KillAgentKey in m && FourKKey in m && DirectlyKey in m
  }

  /** With `max_retries = n`, attempts that all fail make exactly max(1, n + 1)
      attempts, each restarting the application once. */
  lemma {:induction false} FailingRetry(m: map<string, JValue>, n: int, level: int, account: string,
                                        password: string, world: World)
    requires Complete(m, n)
    requires forall i: nat :: CurrentLogin(account, password, Truthy(m[FourKKey]), Truthy(m[DirectlyKey]),
                                           world.screens(i)).outcome != Success
    ensures var report := Retry(n + 1, Attempts(m, level, account, password, world));
      && !report.ok
      && report.attempts == Budget(n + 1)
      && Launches(report.trace) == report.attempts
  {
    var run := Attempts(m, level, account, password, world);
    forall j: nat
      ensures !run(j).ok && Launches(run(j).trace) == 1
    {
      FailedAction(m, level, world.registry, account, password, world.screens(j));
    }
    ExhaustedRetry(n + 1, run);
  }

  /** An action whose keys are all present and whose login fails fails
      after exactly one launch. */
  lemma FailedAction(m: map<string, JValue>, level: int, registry: Option<string>,
                     account: string, password: string, screen: Oracle)
    requires EasiNoteKey in m && DescriptorOf(m[EasiNoteKey]).Some?
    requires KillAgentKey in m && FourKKey in m && DirectlyKey in m
    requires CurrentLogin(account, password, Truthy(m[FourKKey]), Truthy(m[DirectlyKey]), screen).outcome != Success
    ensures !Action(m, level, registry, account, password, screen).ok
    ensures Launches(Action(m, level, registry, account, password, screen).trace) == 1
  {
  }

  /** With `max_retries = n`, a login that fails every time makes exactly
      max(1, n + 1) attempts, restarts the application once per attempt, and
      exits with a failure code. */
  lemma {:induction false} AlwaysFailingLogin(m: map<string, JValue>, n: int, account: string, password: string,
                                              world: World)
    requires Complete(m, n)
    requires forall i: nat :: CurrentLogin(account, password, Truthy(m[FourKKey]), Truthy(m[DirectlyKey]),
                                           world.screens(i)).outcome != Success
    ensures var r := RunProgram(Document(JObj(m)), LoginCommand(account, password), world);
      && r.attempts == Budget(n + 1)
      && Launches(r.trace) == r.attempts
      && r.exitCode == Uncaught
  {
    var level := LevelOf(m[LogLevelKey].s);
    assert LoadConfig(Document(JObj(m))) == Ready(m, level);
    assert AsInt(m[MaxRetriesKey]) == Some(n);
    assert RunProgram(Document(JObj(m)), LoginCommand(account, password), world)
        == CmdLogin(m, level, n + 1, account, password, world);
    FailingRetry(m, n, level, account, password, world);
    var report := Retry(n + 1, Attempts(m, level, account, password, world));
    assert !WarningCancels(m, world.press);
    assert CmdLogin(m, level, n + 1, account, password, world)
        == RunResult([], report.trace, report.attempts, Uncaught);
  }

  /** With `max_retries = n`, a login that succeeds on the first screen makes
      one attempt, restarts the application once, and exits 0. */
  lemma {:induction false} FirstLoginSucceeds(m: map<string, JValue>, n: int, account: string, password: string,
                                              world: World)
    requires Complete(m, n)
    requires CurrentLogin(account, password, Truthy(m[FourKKey]), Truthy(m[DirectlyKey]), world.screens(0)).outcome
          == Success
    ensures var r := RunProgram(Document(JObj(m)), LoginCommand(account, password), world);
      && r.attempts == 1
      && Launches(r.trace) == 1
      && r.exitCode == 0
  {
    var level := LevelOf(m[LogLevelKey].s);
    assert LoadConfig(Document(JObj(m))) == Ready(m, level);
    assert AsInt(m[MaxRetriesKey]) == Some(n);
    assert RunProgram(Document(JObj(m)), LoginCommand(account, password), world)
        == CmdLogin(m, level, n + 1, account, password, world);
    var run := Attempts(m, level, account, password, world);
    SucceededAction(m, level, world.registry, account, password, world.screens(0));
    var report := Retry(n + 1, run);
    assert run(0).ok && Launches(run(0).trace) == 1;
    assert report.attempts == 1 && report.ok;
    TracesLaunches(run, 0, 1);
    assert !WarningCancels(m, world.press);
    assert CmdLogin(m, level, n + 1, account, password, world) == RunResult([], report.trace, 1, 0);
  }

  /** An action whose keys are all present and whose login succeeds
      succeeds after exactly one launch. */
  lemma SucceededAction(m: map<string, JValue>, level: int, registry: Option<string>,
                        account: string, password: string, screen: Oracle)
    requires EasiNoteKey in m && DescriptorOf(m[EasiNoteKey]).Some?
    requires KillAgentKey in m && FourKKey in m && DirectlyKey in m
    requires CurrentLogin(account, password, Truthy(m[FourKKey]), Truthy(m[DirectlyKey]), screen).outcome == Success
    ensures Action(m, level, registry, account, password, screen).ok
    ensures Launches(Action(m, level, registry, account, password, screen).trace) == 1
  {
  }

  /** `skip` followed by `login`: the login run finds the flag, clears it in
      the file, and exits successfully without acting; the run after that
      starts from the original configuration with the flag cleared. */
  lemma {:induction false} SkipThenLogin(m: map<string, JValue>, account: string, password: string, world: World)
    requires LoadConfig(Document(JObj(m))).Ready?
    requires MaxRetriesKey in m && AsInt(m[MaxRetriesKey]).Some?
    ensures var skip := RunProgram(Document(JObj(m)), SkipCommand, world);
      && skip.writes == [Skip(m)] && skip.exitCode == 0
      && var login := RunProgram(Document(skip.writes[0]), LoginCommand(account, password), world);
      && login == RunResult([JObj(m[SkipKey := JBool(false)])], [], 0, 0)
      && LoadConfig(Document(login.writes[0])) == Ready(m[SkipKey := JBool(false)], LoadConfig(Document(JObj(m))).level)
  {
    SkipIsConsumedOnce(m, LoadConfig(Document(JObj(m))).level);
  }

  /** Running `skip` twice in a row leaves the flag cleared: the second
      run's start-up consumes the flag the first one set, so its own
      command never runs. */
  lemma {:induction false} SkipTwiceCancels(m: map<string, JValue>, world: World)
    requires LoadConfig(Document(JObj(m))).Ready?
    requires MaxRetriesKey in m && AsInt(m[MaxRetriesKey]).Some?
    ensures var first := RunProgram(Document(JObj(m)), SkipCommand, world);
      var second := RunProgram(Document(first.writes[0]), SkipCommand, world);
      && second.writes == [JObj(m[SkipKey := JBool(false)])]
      && !Truthy(second.writes[0].fields[SkipKey])
  {
    SkipIsConsumedOnce(m, LoadConfig(Document(JObj(m))).level);
  }

  /** Settings of auto_login_for_easinote.py's `main` that this model uses:
      the restart parameters, read from the `easinote` table by name (see
      `LegacyArgs.ByName`), and the two login switches. */
  datatype LegacySettings = LegacySettings(restart: RestartArgs, is4k: bool, directly: bool)

  /** One call of the older `main`: restart, then log in. */
  function LegacyAttempt(s: LegacySettings, account: string, password: string, screen: Oracle): (a: Attempt)
    ensures |a.trace| >= 2
    ensures a.trace[0].Shell? && ParseKill(a.trace[0].command) == Some((false, s.restart.processName))
    ensures a.trace[1] == Spawn(Argv([s.restart.programPath]))
    ensures Launches(a.trace) == 1
    ensures a.ok <==> LegacyLogin(account, password, s.is4k, s.directly, screen).outcome == Success
  {
    var restart := LegacyRestart(s.restart.programPath, s.restart.processName, s.restart.args);
    var login := LegacyLogin(account, password, s.is4k, s.directly, screen);
    LaunchesAppend(restart, login.trace);
    Attempt(restart + login.trace, login.outcome == Success)
  }

  /** Attempt `i` of the older `main`: a restart and login against the i-th screen. */
  function LegacyAttempts(s: LegacySettings, account: string, password: string, screens: nat -> Oracle)
    : (run: nat -> Attempt)
    ensures forall i: nat :: run(i) == LegacyAttempt(s, account, password, screens(i))
  {
    (i: nat) => LegacyAttempt(s, account, password, screens(i))
  }

  /** The older `main` under its retry decorator with two tries; it returns
      0 when an attempt succeeds, and otherwise the last error escapes. */
  function LegacyMain(s: LegacySettings, account: string, password: string, screens: nat -> Oracle)
    : (r: (Report, Option<int>))
    ensures 1 <= r.0.attempts <= 2
    ensures Launches(r.0.trace) == r.0.attempts
    ensures r.1 == (if r.0.ok then Some(0) else None)
    ensures !r.0.ok <==> && r.0.attempts == 2
                         && !LegacyAttempt(s, account, password, screens(0)).ok
                         && !LegacyAttempt(s, account, password, screens(1)).ok
  {
    var run := LegacyAttempts(s, account, password, screens);
    var report := Retry(2, run);
    TwoTries(run);
    TracesLaunches(run, 0, report.attempts);
    (report, if report.ok then Some(0) else None)
  }
}

=== FILE: autosave.dfy ===
/** The auto-save mechanism of config.py. Each model of a configuration
    tree has a private parent link and a private file. Saving from any model
    climbs the parent links to the root and writes the root's document to
    the root's file, if it has one. Assigning a public field saves; assigning
    a name that starts with an underscore does not. Binding, done at load,
    links every nested model to its enclosing model and hands down the file. */
module AutoSave {
  import opened Wrappers

  type Path = string

  /** The models of one configuration tree, named by where they sit. */
  datatype Slot = Root | Warning | Banner | Login | EasiNote | Timeout | App

  /** The nested models held in a model's fields, in field order. */
  function Children(s: Slot): seq<Slot>
  {
    match s
    case Root => [Warning, Banner, Login, App]
    case Login => [EasiNote, Timeout]
    case _ => []
  }

  /** The model whose field holds `s`. */
  function Owner(s: Slot): (o: Option<Slot>)
    ensures o.None? <==> s == Root
    ensures o.Some? ==> s in Children(o.value)
  {
    match s
    case Root => None
    case Warning => Some(Root)
    case Banner => Some(Root)
    case Login => Some(Root)
    case App => Some(Root)
    case EasiNote => Some(Login)
    case Timeout => Some(Login)
  }

  /** Levels of nesting below `s`. */
  function Height(s: Slot): nat
  {
    match s
    case Root => 2
    case Login => 1
    case _ => 0
  }

  /** Every child is owned by its parent and sits lower in the tree. */
  lemma ChildrenOwned(s: Slot, c: Slot)
    requires c in Children(s)
    ensures Owner(c) == Some(s) && Height(c) < Height(s)
  {
  }

  /** The models enclosing `s`, innermost first. */
  function Ancestors(s: Slot): (a: seq<Slot>)
    ensures Owner(s).None? ==> a == []
    ensures Owner(s).Some? ==> a == [Owner(s).value] + Ancestors(Owner(s).value)
    decreases 2 - Height(s)
  {
    match s
    case Root => []
    case Login => [Root]
    case Warning => [Root]
    case Banner => [Root]
    case App => [Root]
    case EasiNote => [Login, Root]
    case Timeout => [Login, Root]
  }

  /** `d` is `k` or nested, at any depth, inside `k`. */
  predicate Within(d: Slot, k: Slot)
  {
    d == k || k in Ancestors(d)
  }

  /** The private state of one model. */
  datatype Link = Link(parent: Option<Slot>, file: Option<Path>)

  type Links = map<Slot, Link>

  predicate Total(l: Links)
  {
    forall s: Slot :: s in l
  }

  /** Parent links only ever point at the owning model. */
  predicate Sound(l: Links)
  {
    Total(l) && forall s: Slot :: l[s].parent.None? || l[s].parent == Owner(s)
  }

  /** Freshly built models: no parent and no file. */
  function Unbound(): (l: Links)
    ensures Sound(l)
    ensures forall s: Slot :: l[s] == Link(None, None)
  {
    var l := map[Root := Link(None, None), Warning := Link(None, None), Banner := Link(None, None),
                 Login := Link(None, None), EasiNote := Link(None, None), Timeout := Link(None, None),
                 App := Link(None, None)];
    EverySlot(l);
    l
  }

  /** A map with an entry for each of the seven models is total. */
  lemma EverySlot(l: Links)
    requires {Root, Warning, Banner, Login, EasiNote, Timeout, App} <= l.Keys
    ensures Total(l)
  {
    forall s: Slot
      ensures s in l
    {
      match s
      case Root =>
      case Warning =>
      case Banner =>
      case Login =>
      case EasiNote =>
      case Timeout =>
      case App =>
    }
  }

  /** Climbing the parent links from `s`. */
  function FindRoot(l: Links, s: Slot): (r: Slot)
    requires Sound(l)
    decreases 2 - Height(s)
    ensures l[r].parent.None?
    ensures Within(s, r)
    // the climb stops at the first model without a parent
    ensures forall t :: Within(s, t) && Within(t, r) && t != r ==> l[t].parent.Some?
  {
    match l[s].parent
    case None => s
    case Some(p) =>
      ChildrenOwned(p, s);
      FindRoot(l, p)
  }

  /** In a fully bound tree, climbing from any model reaches the root model. */
  lemma {:induction false} FindRootOfBound(l: Links, s: Slot)
    requires Sound(l) && l[Root].parent.None?
    requires forall t: Slot :: t != Root ==> l[t].parent == Owner(t)
    ensures FindRoot(l, s) == Root
    decreases 2 - Height(s)
  {
    if s != Root {
      var p := Owner(s).value;
      ChildrenOwned(p, s);
      FindRootOfBound(l, p);
    }
  }

  /** Binding the root reaches every model: each nested model gets its owner
      as parent and the root's file. */
  lemma BindRoot(l: Links)
    requires Total(l)
    ensures Bind(l, Root)[Root] == l[Root]
    ensures forall s: Slot :: s != Root ==> Bind(l, Root)[s] == Link(Owner(s), l[Root].file)
  {
    forall s: Slot | s != Root
      ensures Bind(l, Root)[s] == Link(Owner(s), l[Root].file)
    {
      InsideRoot(s);
    }
  }

  /** Every model of the tree is inside the root. */
  lemma InsideRoot(s: Slot)
    ensures Within(s, Root)
  {
    match s
    case Root =>
    case Warning =>
    case Banner =>
    case Login =>
    case EasiNote =>
    case Timeout =>
    case App =>
  }

  /** A write of the document of model `of` to the file `path`. */
  datatype Write = Write(path: Path, of: Slot)

  /** `save`: the root reached from `s` is written to its file; nothing is
      written when the root has no file. */
  function Save(l: Links, s: Slot): (w: Option<Write>)
    requires Sound(l)
    ensures w.Some? ==> && l[w.value.of].parent.None?
                        && Within(s, w.value.of)
                        && l[w.value.of].file == Some(w.value.path)
    ensures w.Some? ==> w.value.of == FindRoot(l, s)
    ensures w.None? <==> l[FindRoot(l, s)].file.None?
  {
    var root := FindRoot(l, s);
    match l[root].file
    case None => None
    case Some(p) => Some(Write(p, root))
  }

  /** An attribute name other than the two links: the file is set through
      `SetFile`, the parent only by binding. */
  type AttrName = n: string | n != "_parent" && n != "_file" witness "warning"

  /** An attribute assignment on a model: a field or other attribute (by
      name), or the private file. */
  datatype Assignment = SetField(name: AttrName) | SetFile(file: Option<Path>)

  function Name(a: Assignment): string
  {
    match a
    case SetField(n) => n
    case SetFile(_) => "_file"
  }

  predicate Private(name: string)
  {
    |name| > 0 && name[0] == '_'
  }

  /** The field names of each model, as declared in config.py. */
  function FieldNames(s: Slot): set<string>
  {
    match s
    case Root => {"warning", "banner", "login", "app"}
    case Warning => {"enabled", "timeout"}
    case Banner => {"enabled", "text", "y_offset"}
    case EasiNote => {"path", "process_name", "args"}
    case Timeout => {"terminate", "launch", "enter_login_ui", "switch_tab"}
    case Login => {"skip_once", "kill_agent", "is_4k", "directly", "easinote", "timeout"}
    case App => {"max_retries", "log_level"}
  }

  /** Field names are public. */
  lemma FieldNamesPublic(s: Slot, name: string)
    requires name in FieldNames(s)
    ensures !Private(name)
  {
    match s
    case Root =>
    case Warning =>
    case Banner =>
    case Login =>
    case EasiNote =>
    case Timeout =>
    case App =>
  }

  /** What an assignment does: the model's base class refuses a public name
      that is not a field (`Raised`, nothing is saved); otherwise the value
      is stored and a write may follow. */
  datatype Assigned = Raised | Stored(links: Links, write: Option<Write>)

  /** `__setattr__`: store the value, then save unless the name is private. */
  function SetAttr(l: Links, s: Slot, a: Assignment): (r: Assigned)
    requires Sound(l)
    ensures r.Raised? <==> a.SetField? && !Private(a.name) && a.name !in FieldNames(s)
    ensures r.Stored? ==> Sound(r.links)
    ensures r.Stored? && Private(Name(a)) ==> r.write.None?
    ensures r.Stored? && !Private(Name(a)) ==> r.write == Save(l, s)
    ensures r.Stored? && a.SetField? ==> r.links == l
    ensures a.SetFile? ==> && r.Stored?
                           && r.links[s] == Link(l[s].parent, a.file)
                           && forall t: Slot :: t != s ==> r.links[t] == l[t]
  {
    if a.SetField? && !Private(a.name) && a.name !in FieldNames(s) then Raised
    else
      var l' := if a.SetFile? then l[s := Link(l[s].parent, a.file)] else l;
      Stored(l', if Private(Name(a)) then None else Save(l', s))
  }

  /** `_bind_children` on `s`: every model nested inside `s` gets its owner
      as parent and the file `s` has. */
  function Bind(l: Links, s: Slot): (r: Links)
    requires Total(l)
    decreases Height(s), 1, 0
    ensures Total(r)
    ensures forall d: Slot :: d != s && Within(d, s) ==> r[d] == Link(Owner(d), l[s].file)
    ensures forall d: Slot :: !(d != s && Within(d, s)) ==> r[d] == l[d]
  {
    var r := BindEach(l, s, |Children(s)|);
    forall d: Slot
      ensures (d != s && Within(d, s)) <==> UnderFirst(d, s, |Children(s)|)
    {
      WithinChildren(d, s);
    }
    r
  }

  /** Binds the first `n` children of `s`, in field order. */
  function BindEach(l: Links, s: Slot, n: nat): (r: Links)
    requires Total(l)
    requires n <= |Children(s)|
    decreases Height(s), 0, n
    ensures Total(r)
    ensures forall d: Slot :: UnderFirst(d, s, n) ==> r[d] == Link(Owner(d), l[s].file)
    ensures forall d: Slot :: !UnderFirst(d, s, n) ==> r[d] == l[d]
  {
    if n == 0 then l
    else
      var before := BindEach(l, s, n - 1);
      var k := Children(s)[n - 1];
      ChildrenOwned(s, k);
      var linked := before[k := Link(Some(s), before[s].file)];
      var r := Bind(linked, k);
      assert before[s] == l[s] by {
        NotUnderItself(s, n - 1);
      }
      forall d: Slot
        ensures UnderFirst(d, s, n) ==> r[d] == Link(Owner(d), l[s].file)
        ensures !UnderFirst(d, s, n) ==> r[d] == l[d]
      {
        if Within(d, k) {
          // the child's own subtree: bound now, untouched by earlier children
          ChildrenDisjoint(d, s, n - 1, n - 1);
          assert UnderFirst(d, s, n);
          if d == k {
            assert r[d] == linked[k];
          } else {
            assert r[d] == Link(Owner(d), linked[k].file);
          }
        } else {
          assert r[d] == before[d];
        }
      }
      r
  }

  /** `d` sits within one of the first `n` children of `s`. */
  predicate UnderFirst(d: Slot, s: Slot, n: nat)
    requires n <= |Children(s)|
  {
    n > 0 && (UnderFirst(d, s, n - 1) || Within(d, Children(s)[n - 1]))
  }

  lemma NotUnderItself(s: Slot, n: nat)
    requires n <= |Children(s)|
    ensures !UnderFirst(s, s, n)
  {
    if n > 0 {
      NotUnderItself(s, n - 1);
    }
  }

  /** A model lies within at most one child of any model. */
  lemma ChildUnique(d: Slot, s: Slot, i: nat, j: nat)
    requires i < |Children(s)| && j < |Children(s)|
    requires Within(d, Children(s)[i]) && Within(d, Children(s)[j])
    ensures i == j
  {
    match s
    case Root =>
    case Login =>
  }

  /** The subtrees of different children do not overlap. */
  lemma ChildrenDisjoint(d: Slot, s: Slot, n: nat, m: nat)
    requires n <= m < |Children(s)|
    requires Within(d, Children(s)[m])
    ensures !UnderFirst(d, s, n)
  {
    if n > 0 {
      ChildrenDisjoint(d, s, n - 1, m);
      if Within(d, Children(s)[n - 1]) {
        ChildUnique(d, s, n - 1, m);
      }
    }
  }

  /** A model lies inside `s`, other than `s` itself, exactly when it lies
      within one of `s`'s children. */
  lemma WithinChildren(d: Slot, s: Slot)
    ensures (d != s && Within(d, s)) <==> UnderFirst(d, s, |Children(s)|)
  {
    match s
    case Root => WithinRootChildren(d);
    case Login => WithinLoginChildren(d);
    case _ =>
  }

  lemma WithinRootChildren(d: Slot)
    ensures (d != Root && Within(d, Root)) <==> UnderFirst(d, Root, 4)
  {
    assert UnderFirst(d, Root, 1) <==> Within(d, Warning);
    assert UnderFirst(d, Root, 2) <==> UnderFirst(d, Root, 1) || Within(d, Banner);
    assert UnderFirst(d, Root, 3) <==> UnderFirst(d, Root, 2) || Within(d, Login);
    assert UnderFirst(d, Root, 4) <==> UnderFirst(d, Root, 3) || Within(d, App);
    InsideRoot(d);
  }

  lemma WithinLoginChildren(d: Slot)
    ensures (d != Login && Within(d, Login)) <==> UnderFirst(d, Login, 2)
  {
    assert UnderFirst(d, Login, 1) <==> Within(d, EasiNote);
    assert UnderFirst(d, Login, 2) <==> UnderFirst(d, Login, 1) || Within(d, Timeout);
  }
}

=== FILE: configfile.dfy ===
/** `Config.load` of config.py: read the file when it exists and is not
    empty, otherwise start from the defaults; a file that does not parse or
    validate ends the program with exit code 1. The loaded tree is then
    given the file and bound, so that any later field assignment saves the
    whole configuration to it. */
module ConfigFile {
  import opened Wrappers
  import opened Settings
  import opened AutoSave

  /** The file as found: missing, empty, or with contents that decode to a
      document (None when they are not a JSON object of the right shape). */
  datatype FileState = NoFile | EmptyFile | Contents(doc: Option<RawConfig>)

  datatype Loaded = Exit(code: int) | Ready(config: Config, links: Links)

  /** Exit code for a configuration that fails to parse or validate. */
  const BadConfigExit: int := 1

  function Load(f: FileState, path: Path): (r: Loaded)
    ensures r.Exit? <==> f.Contents? && (f.doc.None? || Validate(f.doc.value).None?)
    ensures r.Exit? ==> r.code == BadConfigExit
    ensures (f.NoFile? || f.EmptyFile?) ==> r.Ready? && r.config == Defaults()
    ensures f.Contents? && r.Ready? ==> Some(r.config) == Validate(f.doc.value)
    ensures r.Ready? ==> Valid(r.config) && r.links == Bound(path)
  {
    var parsed :=
      if f.Contents? then (if f.doc.None? then None else Validate(f.doc.value))
      else Some(Defaults());
    match parsed
    case None => Exit(BadConfigExit)
    case Some(cfg) => Ready(cfg, Bound(path))
  }

  /** The links of a loaded tree: the root holds the file and every nested
      model is bound to its owner and carries the root's file. */
  function Bound(path: Path): (l: Links)
    ensures Sound(l)
    ensures l[Root] == Link(None, Some(path))
    ensures forall s: Slot :: s != Root ==> l[s] == Link(Owner(s), Some(path))
  {
    var withFile := Unbound()[Root := Link(None, Some(path))];
    EverySlot(withFile);
    BindRoot(withFile);
    var l := Bind(withFile, Root);
    assert l[Root] == Link(None, Some(path));
    assert Sound(l) by {
      forall s: Slot
        ensures l[s].parent.None? || l[s].parent == Owner(s)
      {
        if s != Root {
          assert l[s].parent == Owner(s);
        }
      }
    }
    l
  }

  /** After loading, saving from any model writes the root's document to
      the configuration file. */
  lemma LoadedTreeSavesToFile(f: FileState, path: Path, s: Slot)
    requires Load(f, path).Ready?
    ensures Save(Load(f, path).links, s) == Some(Write(path, Root))
  {
    FindRootOfBound(Bound(path), s);
  }

  /** After loading, assigning a field of any model writes the whole
      configuration once, to the configuration file; assigning a private
      name writes nothing; a public name that is no field of the model
      raises and writes nothing. */
  lemma AssignmentAfterLoad(f: FileState, path: Path, s: Slot, a: Assignment)
    ensures Load(f, path).Ready? && a.SetField? && a.name in FieldNames(s) ==>
      SetAttr(Load(f, path).links, s, a) == Stored(Load(f, path).links, Some(Write(path, Root)))
    ensures Load(f, path).Ready? && Private(Name(a)) ==>
      SetAttr(Load(f, path).links, s, a).Stored? && SetAttr(Load(f, path).links, s, a).write.None?
    ensures Load(f, path).Ready? && a.SetField? && !Private(a.name) && a.name !in FieldNames(s) ==>
      SetAttr(Load(f, path).links, s, a).Raised?
  {
    if Load(f, path).Ready? {
      var l := Load(f, path).links;
      if a.SetField? && a.name in FieldNames(s) {
        FieldNamesPublic(s, a.name);
        LoadedTreeSavesToFile(f, path, s);
        assert SetAttr(l, s, a) == Stored(l, Save(l, s));
      }
    }
  }

  /** Before binding, models have no file and saving writes nothing. */
  lemma UnboundSavesNothing(s: Slot)
    ensures Save(Unbound(), s).None?
  {
  }

  /** Only the root's file decides where a save goes: changing the file of a
      bound nested model changes no save. */
  lemma {:induction false} OnlyRootFileCounts(l: Links, c: Slot, file: Option<Path>, s: Slot)
    requires Sound(l)
    requires l[c].parent.Some?
    ensures Save(SetAttr(l, c, SetFile(file)).links, s) == Save(l, s)
  {
    var l' := SetAttr(l, c, SetFile(file)).links;
    SameRoot(l, l', c, s);
  }

  /** Links that differ only in the file of a model with a parent lead to
      the same root, with the same file. */
  lemma {:induction false} SameRoot(l: Links, l': Links, c: Slot, s: Slot)
    requires Sound(l) && Sound(l')
    requires l[c].parent.Some?
    requires l'[c] == Link(l[c].parent, l'[c].file)
    requires forall t: Slot :: t != c ==> l'[t] == l[t]
    ensures FindRoot(l', s) == FindRoot(l, s)
    ensures FindRoot(l, s) != c
    decreases 2 - Height(s)
  {
    match l[s].parent
    case None =>
    case Some(p) =>
      ChildrenOwned(p, s);
      SameRoot(l, l', c, p);
  }
}

=== FILE: countdown.dfy ===
/** The countdown of the warning dialog in main.py. The dialog shows the
    seconds left, updating once immediately and then once per timer tick;
    the update that finds no seconds left presses OK itself. The user may
    press a button in between. */
module Countdown {
  import opened Wrappers

  /** Timeout used when the configured one is not positive. */
  const FallbackTimeout: int := 15

  datatype Button = Ok | Cancel

  /** The user pressing `button` after update number `after` (0 is the
      immediate update) and before the next one. */
  datatype Press = Press(after: nat, button: Button)

  /** The timeout the dialog counts down from. */
  function Effective(configured: int): (t: nat)
    ensures t > 0
    ensures configured > 0 ==> t == configured
    ensures configured <= 0 ==> t == FallbackTimeout
  {
    if configured <= 0 then FallbackTimeout else configured
  }

  /** The seconds shown by the updates, in order, when nobody presses: n, n-1, ..., 1. */
  function Shown(n: nat): (s: seq<int>)
    ensures |s| == n
    // update `i` shows `n - i`
    ensures forall i :: 0 <= i < n ==> s[i] == n - i
  {
    if n == 0 then [] else [n] + Shown(n - 1)
  }

  /** The button that closes the dialog: the user's, if pressed before the
      update that finds no seconds left, otherwise the automatic OK. */
  function Closing(configured: int, press: Option<Press>): Button
  {
    if press.Some? && press.value.after < Effective(configured) then press.value.button else Ok
  }

  /** Runs the dialog: returns the seconds shown and the button that closed it. */
  method RunDialog(configured: int, press: Option<Press>) returns (shown: seq<int>, button: Button)
    ensures button == Closing(configured, press)
    // nobody pressed in time: every second is shown and OK is pressed automatically
    ensures (press.None? || press.value.after >= Effective(configured)) ==>
      button == Ok && shown == Shown(Effective(configured))
    // the user pressed first: the dialog closes with their button after their update
    ensures press.Some? && press.value.after < Effective(configured) ==>
      button == press.value.button && |shown| == press.value.after + 1
    // each update shows one second fewer than the one before
    ensures forall i :: 0 <= i < |shown| ==> shown[i] == Effective(configured) - i
  {
    var t := if configured <= 0 then FallbackTimeout else configured;
    ghost var total := t;
    shown := [];
    var update := 0;
    while true
      invariant 0 <= t <= total == Effective(configured)
      invariant update == |shown| == total - t
      invariant forall i :: 0 <= i < |shown| ==> shown[i] == total - i
      invariant press.Some? ==> press.value.after >= update
      decreases t
    {
      if t > 0 {
        shown := shown + [t];
        t := t - 1;
      } else {
        // the timeout has run out: press OK
        assert shown == Shown(total);
        button := Ok;
        return;
      }
      if press.Some? && press.value.after == update {
        button := press.value.button;
        return;
      }
      update := update + 1;
    }
  }
}

=== FILE: json.dfy ===
/** Decoded JSON values, as the dictionary-based configuration of main.py
    holds them, with the two Python readings the program applies to them. */
module Json {
  import opened Wrappers

  datatype JValue =
    | JNull
    | JBool(b: bool)
    | JInt(i: int)
    | JStr(s: string)
    | JArr(items: seq<JValue>)
    | JObj(fields: map<string, JValue>)

  /** Python truthiness: false, 0, null and empty strings, lists and
      objects are false; everything else is true. */
  predicate Truthy(v: JValue)
  {
    match v
    case JNull => false
    case JBool(b) => b
    case JInt(i) => i != 0
    case JStr(s) => |s| > 0
    case JArr(items) => |items| > 0
    case JObj(fields) => |fields| > 0
  }

  /** The value in integer arithmetic and comparisons, where Python treats
      booleans as 0 and 1; None where Python raises a type error. */
  function AsInt(v: JValue): (r: Option<int>)
    ensures r.Some? <==> v.JInt? || v.JBool?
    ensures v.JInt? ==> r == Some(v.i)
    ensures v.JBool? ==> r == Some(if v.b then 1 else 0)
  {
    match v
    case JInt(i) => Some(i)
    case JBool(b) => Some(if b then 1 else 0)
    case _ => None
  }

  /** A value that is neither a list nor an object. */
  predicate Scalar(v: JValue)
  {
    !v.JArr? && !v.JObj?
  }

  /** The number a string of decimal digits denotes, read most
      significant first. */
  function DecimalValue(s: string): int
  {
    if s == [] then 0 else 10 * DecimalValue(s[..|s| - 1]) + (s[|s| - 1] as int - '0' as int)
  }

  /** The decimal digits of `n`, most significant first, without leading
      zeros: the text that reads back as `n`. */
  function Digits(n: nat): (d: string)
    ensures |d| >= 1
    ensures forall i :: 0 <= i < |d| ==> '0' <= d[i] <= '9'
    ensures n < 10 <==> |d| == 1
    ensures d[0] == '0' <==> n == 0
    ensures DecimalValue(d) == n
  {
    if n < 10 then [(n + '0' as int) as char]
    else
      var d := Digits(n / 10) + [(n % 10 + '0' as int) as char];
      assert d[..|d| - 1] == Digits(n / 10);
      d
  }

  /** Python's `str` of a scalar, as an f-string renders it. */
  function Str(v: JValue): (r: string)
    requires Scalar(v)
    ensures v.JStr? ==> r == v.s
    ensures v.JNull? ==> r == "None"
    ensures v.JBool? ==> r == (if v.b then "True" else "False")
    // an integer is its decimal text, with a minus sign when negative
    ensures v.JInt? ==> |r| > 0 && (r[0] == '-' <==> v.i < 0)
    ensures v.JInt? && v.i >= 0 ==> DecimalValue(r) == v.i
    ensures v.JInt? && v.i < 0 ==> DecimalValue(r[1..]) == -v.i
    // only a string renders as text starting with a lower-case letter
    ensures !v.JStr? ==> |r| > 0 && !('a' <= r[0] <= 'z')
  {
    match v
    case JNull => "None"
    case JBool(b) => if b then "True" else "False"
    case JInt(i) => if i < 0 then "-" + Digits(-i) else Digits(i)
    case JStr(s) => s
  }

  /** An integer renders as Python writes it: an optional minus sign, then
      decimal digits only, with no leading zero unless the value is zero. */
  lemma IntRendersAsDecimal(i: int)
    ensures var r := Str(JInt(i));
      var start := if i < 0 then 1 else 0;
      && start < |r|
      && (forall k :: start <= k < |r| ==> '0' <= r[k] <= '9')
      && (r[start] == '0' <==> i == 0)
  {
  }
}

=== FILE: legacyargs.dfy ===
/** How the older script passes its `easinote` table to `restart_easinote`.
    The table is a JSON object, kept here as key/value pairs in document
    order. Unpacking it with `*` passes its keys, in order, as the
    positional parameters `program_path`, `process_name` and `args`, so
    the configured values never reach the restart. The corrected reading
    passes the values by name to a first parameter called `path`, as in
    main.py's `restart_easinote`. */
module LegacyArgs {
  import opened Wrappers
  import opened Screen
  import opened Process

  type Table = seq<(string, string)>

  /** The positional parameters of the older `restart_easinote`. */
  datatype RestartArgs = RestartArgs(programPath: string, processName: string, args: string)

  /** Keyword defaults of the older `restart_easinote`; the process name
      is `DefaultProcessName`, as in main.py. */
  const DefaultArgs: string := ""

  function Keys(t: Table): (k: seq<string>)
    ensures |k| == |t|
    ensures forall i :: 0 <= i < |t| ==> k[i] == t[i].0
  {
    if t == [] then [] else [t[0].0] + Keys(t[1..])
  }

  /** The keys of the dictionary `json.load` builds from the pairs: each key
      once, at the place of its first occurrence (a repeated key keeps its
      place and takes the later value). */
  function Distinct(s: seq<string>): (d: seq<string>)
    ensures forall x :: x in d <==> x in s
    ensures forall i, j :: 0 <= i < j < |d| ==> d[i] != d[j]
    ensures |d| <= |s|
    ensures s != [] ==> d != [] && d[0] == s[0]
    ensures (forall i, j :: 0 <= i < j < |s| ==> s[i] != s[j]) ==> d == s
  {
    if s == [] then []
    else
      var d := Distinct(s[..|s| - 1]);
      assert s == s[..|s| - 1] + [s[|s| - 1]];
      if s[|s| - 1] in d then d else d + [s[|s| - 1]]
  }

  /** `x` occurs in `s` somewhere before the first occurrence of `y`. */
  ghost predicate Before(s: seq<string>, x: string, y: string)
  {
    exists p :: 0 <= p < |s| && s[p] == x && y !in s[..p + 1]
  }

  /** The keys keep the order of their first occurrences. */
  lemma {:induction false} DistinctOrder(s: seq<string>)
    ensures forall i, j :: 0 <= i < j < |Distinct(s)| ==> Before(s, Distinct(s)[i], Distinct(s)[j])
  {
    if s != [] {
      var front := s[..|s| - 1];
      var x := s[|s| - 1];
      var d0 := Distinct(front);
      DistinctOrder(front);
      assert s == front + [x];
      var d := Distinct(s);
      assert d == (if x in d0 then d0 else d0 + [x]);
      forall i, j | 0 <= i < j < |d|
        ensures Before(s, d[i], d[j])
      {
        if j < |d0| {
          assert Before(front, d0[i], d0[j]);
          BeforeGrows(front, x, d0[i], d0[j]);
        } else {
          BeforeLast(front, x, d0[i]);
        }
      }
    }
  }

  /** Appending to the sequence keeps an earlier order. */
  lemma BeforeGrows(front: seq<string>, x: string, a: string, b: string)
    requires Before(front, a, b)
    ensures Before(front + [x], a, b)
  {
    var p :| 0 <= p < |front| && front[p] == a && b !in front[..p + 1];
    assert (front + [x])[..p + 1] == front[..p + 1];
    assert (front + [x])[p] == a;
  }

  /** A key that occurs only at the end comes after every earlier key. */
  lemma BeforeLast(front: seq<string>, x: string, a: string)
    requires a in front && x !in front
    ensures Before(front + [x], a, x)
  {
    var p :| 0 <= p < |front| && front[p] == a;
    assert (front + [x])[..p + 1] == front[..p + 1];
    assert (front + [x])[p] == a;
  }

  /** `restart_easinote(*table)`: the dictionary's keys fill the positional
      parameters in order; with no key the required `program_path` is
      missing, and with more than three the call has too many arguments, and
      both raise. */
  function SpreadAsWritten(t: Table): (r: Option<RestartArgs>)
    ensures var ks := Distinct(Keys(t));
      && (r.Some? <==> 1 <= |ks| <= 3)
      && (r.Some? ==> r.value.programPath == ks[0] == t[0].0)
      && (r.Some? ==> r.value.processName == (if |ks| >= 2 then ks[1] else DefaultProcessName))
      && (r.Some? ==> r.value.args == (if |ks| == 3 then ks[2] else DefaultArgs))
  {
    var ks := Distinct(Keys(t));
    if |ks| == 1 then Some(RestartArgs(ks[0], DefaultProcessName, DefaultArgs))
    else if |ks| == 2 then Some(RestartArgs(ks[0], ks[1], DefaultArgs))
    else if |ks| == 3 then Some(RestartArgs(ks[0], ks[1], ks[2]))
    else None
  }

  /** The configured values play no part: two tables with the same keys in
      the same order restart the same way. */
  lemma SpreadIgnoresValues(t: Table, u: Table)
    requires Keys(t) == Keys(u)
    ensures SpreadAsWritten(t) == SpreadAsWritten(u)
  {
  }

  /** A repeated key is passed once: a table holding only `path`, twice,
      terminates the default process and launches a program named `path`. */
  lemma RepeatedKeyPassedOnce(a: string, b: string)
    ensures SpreadAsWritten([("path", a), ("path", b)]) == Some(RestartArgs("path", DefaultProcessName, DefaultArgs))
    ensures LegacyRestart("path", DefaultProcessName, DefaultArgs)
         == [Shell(KillPrefix + DefaultProcessName), Spawn(Argv(["path"]))]
  {
    var ks := Distinct(Keys([("path", a), ("path", b)]));
    assert Keys([("path", a), ("path", b)]) == ["path", "path"];
  }

  /** With the table of the default configuration, whatever its values, the
      restart terminates a process named `process_name` and launches a
      program named `path`. */
  lemma DefaultTableRestartsKeyNames(path: string, processName: string, args: string)
    ensures var t := [("path", path), ("process_name", processName), ("args", args)];
      && SpreadAsWritten(t).Some?
      && var a := SpreadAsWritten(t).value;
      LegacyRestart(a.programPath, a.processName, a.args)
        == [Shell(KillPrefix + "process_name"), Spawn(Argv(["path"]))]
  {
  }

  /** The value of the last pair with key `k`, as a JSON object keeps the
      last of repeated keys. */
  function Lookup(t: Table, k: string): (v: Option<string>)
    ensures v.None? <==> forall i :: 0 <= i < |t| ==> t[i].0 != k
    ensures v.Some? ==> exists i :: 0 <= i < |t| && t[i] == (k, v.value) && forall j :: i < j < |t| ==> t[j].0 != k
  {
    if t == [] then None
    else if t[|t| - 1].0 == k then Some(t[|t| - 1].1)
    else
      var v := Lookup(t[..|t| - 1], k);
      assert forall i :: 0 <= i < |t| - 1 ==> t[..|t| - 1][i] == t[i];
      assert t == t[..|t| - 1] + [t[|t| - 1]];
      if v.Some? then LastPairExtends(t[..|t| - 1], t[|t| - 1], k, v.value); v else v
  }

  /** The last pair with key `k` stays the last one when a pair with
      another key is appended. */
  lemma LastPairExtends(front: Table, last: (string, string), k: string, v: string)
    requires last.0 != k
    requires exists i :: 0 <= i < |front| && front[i] == (k, v) && forall j :: i < j < |front| ==> front[j].0 != k
    ensures var t := front + [last];
      exists i :: 0 <= i < |t| && t[i] == (k, v) && forall j :: i < j < |t| ==> t[j].0 != k
  {
    var t := front + [last];
    var i :| 0 <= i < |front| && front[i] == (k, v) && forall j :: i < j < |front| ==> front[j].0 != k;
    assert t[i] == (k, v);
    assert forall j :: i < j < |t| ==> t[j].0 != k by {
      forall j | i < j < |t|
        ensures t[j].0 != k
      {
        if j < |front| {
          assert t[j] == front[j];
        }
      }
    }
  }

  /** `restart_easinote(**table)` with the first parameter named `path`, as
      main.py names it: the values passed by name. A table without `path`
      misses that required parameter, and a key that is not a parameter is
      an unexpected keyword; both raise. */
  function ByName(t: Table): (r: Option<RestartArgs>)
    ensures r.Some? <==> Lookup(t, "path").Some? && forall i :: 0 <= i < |t| ==> t[i].0 in {"path", "process_name", "args"}
    ensures r.Some? ==> Some(r.value.programPath) == Lookup(t, "path")
    ensures r.Some? ==> r.value.processName == Lookup(t, "process_name").GetOr(DefaultProcessName)
    ensures r.Some? ==> r.value.args == Lookup(t, "args").GetOr(DefaultArgs)
  {
    if Lookup(t, "path").Some? && forall i :: 0 <= i < |t| ==> t[i].0 in {"path", "process_name", "args"} then
      Some(RestartArgs(Lookup(t, "path").value, Lookup(t, "process_name").GetOr(DefaultProcessName),
                       Lookup(t, "args").GetOr(DefaultArgs)))
    else None
  }

  /** Read by name, the table of the default configuration restarts the
      configured process from the configured path. */
  lemma ByNameUsesValues(path: string, processName: string, args: string)
    ensures var t := [("path", path), ("process_name", processName), ("args", args)];
      && ByName(t) == Some(RestartArgs(path, processName, args))
      && LegacyRestart(path, processName, args) == [Shell(KillPrefix + processName), Spawn(Argv([path]))]
  {
    var t := [("path", path), ("process_name", processName), ("args", args)];
    assert t[2].0 == "args" && t[1].0 == "process_name" && t[0].0 == "path";
    assert Lookup(t, "args") == Some(args);
    assert Lookup(t, "process_name") == Some(processName) by {
      assert t[..2][1] == ("process_name", processName);
    }
    assert Lookup(t, "path") == Some(path) by {
      assert t[..2][..1] == [("path", path)];
    }
  }
}

=== FILE: login.dfy ===
/** The login action of both scripts: enter the login screen, find the
    account-login button (or its already-selected variant), type the
    credentials at fixed offsets below that button, tick the agreement
    checkbox and submit. The screen is an oracle of template answers; the
    result is the exact action trace and the outcome. */
module LoginFlow {
  import opened Screen
  import opened Wrappers

  /** `Current` is `login` in main.py; `Legacy` is `login` in
      auto_login_for_easinote.py. They differ in image names and in which
      error escapes when neither button template is found. */
  datatype Variant = Current | Legacy

  /** The three template images one login consults. */
  datatype Images = Images(button: string, selected: string, checkbox: string)

  /** The step at which a login gave up. */
  datatype Step = ButtonStep | CheckboxStep

  /** The error that escapes: a failed `assert` on a search that returned
      nothing, or the matcher's own image-not-found error. */
  datatype ErrorKind = AssertionFailed | ImageNotFound

  datatype Outcome =
    | Success
    | Failed(step: Step, kind: ErrorKind, image: string)  // `image`: the search that raised

  datatype LoginResult = LoginResult(trace: seq<Event>, outcome: Outcome)

  /** Base offsets, in unscaled pixels, of the form fields below the button. */
  const AccountDy: int := 70
  const PasswordDy: int := 134
  const SubmitDy: int := 198

  /** Display scale: 2 in 4K mode, 1 otherwise. */
  function Scale(is4k: bool): (s: int)
    ensures s == 2 <==> is4k
    ensures s == 1 <==> !is4k
  {
    if is4k then 2 else 1
  }

  /** The point clicked to open the login screen (unless logging in directly). */
  function EnterPoint(scale: int): (p: Point)
    ensures p.x == 172 * scale && p.y == 1044 * scale
  {
    Point(172 * scale, 1044 * scale)
  }

  /** Image-name suffix of main.py: "_direct" for direct login, then "_4k"
      for 4K mode. */
  function Suffix(directly: bool, is4k: bool): (s: string)
    ensures s in {"", "_direct", "_4k", "_direct_4k"}
    ensures directly <==> |s| >= 7 && s[..7] == "_direct"
    ensures is4k <==> |s| >= 3 && s[|s| - 3..] == "_4k"
  {
    var s := (if directly then "_direct" else "") + (if is4k then "_4k" else "");
    assert directly && is4k ==> s == "_direct_4k";
    assert directly && !is4k ==> s == "_direct";
    assert !directly && is4k ==> s == "_4k";
    assert !directly && !is4k ==> s == "";
    s
  }

  /** Recovers (directly, is4k) from a suffix; the inverse of Suffix. */
  function ParseSuffix(s: string): (r: Option<(bool, bool)>)
    ensures r.Some? <==> s in {"", "_direct", "_4k", "_direct_4k"}
  {
    if s == "" then Some((false, false))
    else if s == "_direct" then Some((true, false))
    else if s == "_4k" then Some((false, true))
    else if s == "_direct_4k" then Some((true, true))
    else None
  }

  /** The suffix determines both flags, and every suffix comes from flags. */
  lemma SuffixRoundTrip(directly: bool, is4k: bool, s: string)
    ensures ParseSuffix(Suffix(directly, is4k)) == Some((directly, is4k))
    ensures ParseSuffix(s).Some? ==> Suffix(ParseSuffix(s).value.0, ParseSuffix(s).value.1) == s
  {
  }

  /** Template images of main.py: the suffix is appended to each base name. */
  function CurrentImages(is4k: bool, directly: bool): (img: Images)
    ensures img.button == "button" + Suffix(directly, is4k) + ".png"
    ensures img.selected == "button_selected" + Suffix(directly, is4k) + ".png"
    ensures img.checkbox == "checkbox" + Suffix(directly, is4k) + ".png"
    // the three templates are different files
    ensures img.button != img.selected && img.button != img.checkbox && img.selected != img.checkbox
  {
    var sfx := Suffix(directly, is4k);
    Images("button" + sfx + ".png", "button_selected" + sfx + ".png", "checkbox" + sfx + ".png")
  }

  /** The template files a set of images names. */
  function Names(img: Images): set<string>
  {
    {img.button, img.selected, img.checkbox}
  }

  /** Every template name of main.py starts with "b" or "c". */
  lemma CurrentNamesStart()
    ensures forall k: bool, d: bool, n :: n in Names(CurrentImages(k, d)) ==> |n| > 0 && n[0] != 'a'
  {
    forall k: bool, d: bool
      ensures forall n :: n in Names(CurrentImages(k, d)) ==> |n| > 0 && n[0] != 'a'
    {
      var img := CurrentImages(k, d);
      assert img.button[0] == 'b' && img.selected[0] == 'b' && img.checkbox[0] == 'c';
    }
  }

  /** Template images of auto_login_for_easinote.py: chosen by 4K mode alone. */
  function LegacyImages(is4k: bool): (img: Images)
    ensures is4k ==> img == Images("account_login_4k.png", "account_login_selected_4k.png", "agree_checkbox_4k.png")
    ensures !is4k ==> img == Images("account_login.png", "account_login_selected.png", "agree_checkbox.png")
    // the three templates are different files
    ensures img.button != img.selected && img.button != img.checkbox && img.selected != img.checkbox
  {
    if is4k then Images("account_login_4k.png", "account_login_selected_4k.png", "agree_checkbox_4k.png")
    else Images("account_login.png", "account_login_selected.png", "agree_checkbox.png")
  }

  /** None of the older script's templates is a template of main.py, in
      any role and for any switch settings. */
  lemma LegacyNamesNotCurrent(is4k: bool, is4k': bool, directly': bool)
    ensures Names(LegacyImages(is4k)) !! Names(CurrentImages(is4k', directly'))
  {
    // main.py's templates start with "button" and "checkbox", the older ones with "a"
    CurrentNamesStart();
  }

  /** Each template name of main.py determines both switches: different
      switch settings never share a button template. */
  lemma TemplateNamesDetermineSwitches(is4k: bool, directly: bool, is4k': bool, directly': bool)
    requires CurrentImages(is4k, directly).button == CurrentImages(is4k', directly').button
    ensures is4k == is4k' && directly == directly'
  {
    var s1 := Suffix(directly, is4k);
    var s2 := Suffix(directly', is4k');
    var n1 := "button" + s1 + ".png";
    var n2 := "button" + s2 + ".png";
    assert n1[6..|n1| - 4] == s1;
    assert n2[6..|n2| - 4] == s2;
    SuffixRoundTrip(directly, is4k, s1);
    SuffixRoundTrip(directly', is4k', s2);
  }

  /** The error a search that did not find its template raises. */
  function MissKind(a: Locate): ErrorKind
  {
    if a.Raised? then ImageNotFound else AssertionFailed
  }

  /** The anchor the form offsets are measured from: the button if found,
      else its selected variant, else none. */
  function AnchorOf(button: Locate, selected: Locate): (a: Option<Point>)
    ensures button.Found? ==> a == Some(button.center)
    ensures !button.Found? && selected.Found? ==> a == Some(selected.center)
    ensures a.None? <==> !button.Found? && !selected.Found?
  {
    if button.Found? then Some(button.center)
    else if selected.Found? then Some(selected.center)
    else None
  }

  /** The error that escapes when neither button template is found. main.py
      re-raises the error of the second search. The legacy script re-raises
      the error of the first search when the second returns nothing, but an
      image-not-found error raised by the second search escapes unchanged. */
  function ButtonError(v: Variant, img: Images, button: Locate, selected: Locate): (o: Outcome)
    ensures o.Failed? && o.step == ButtonStep
    ensures v == Current ==> o.image == img.selected && o.kind == MissKind(selected)
    ensures v == Legacy && selected.Raised? ==> o.image == img.selected && o.kind == ImageNotFound
    ensures v == Legacy && !selected.Raised? ==> o.image == img.button && o.kind == MissKind(button)
  {
    if v == Current || selected.Raised? then Failed(ButtonStep, MissKind(selected), img.selected)
    else Failed(ButtonStep, MissKind(button), img.button)
  }

  /** The six credential actions for an anchor: focus the account field,
      clear it, type the account, focus the password field, type the password. */
  function CredentialActions(anchor: Point, scale: int, account: string, password: string): seq<Event>
  {
    [ Click(Below(anchor, AccountDy, scale)), Hotkey(["ctrl", "a"]), Press("backspace"), TypeText(account),
      Click(Below(anchor, PasswordDy, scale)), TypeText(password) ]
  }

  /** One login attempt against the screen `screen`. Each template is
      searched at most once per attempt, so one oracle answers them all. */
  function Login(v: Variant, img: Images, scale: int, directly: bool, account: string, password: string,
                 screen: Oracle): (r: LoginResult)
    ensures r.outcome == Success <==>
      AnchorOf(screen(img.button), screen(img.selected)).Some? && screen(img.checkbox).Found?
    // neither button template found: the error of the button step escapes
    ensures AnchorOf(screen(img.button), screen(img.selected)).None? ==>
      r.outcome == ButtonError(v, img, screen(img.button), screen(img.selected))
    // an anchor but no checkbox: the checkbox step fails with that search's error
    ensures AnchorOf(screen(img.button), screen(img.selected)).Some? && !screen(img.checkbox).Found? ==>
      r.outcome == Failed(CheckboxStep, MissKind(screen(img.checkbox)), img.checkbox)
    // logging in never launches a process
    ensures forall i :: 0 <= i < |r.trace| ==> !r.trace[i].Spawn?
  {
    var enter := if directly then [] else [Click(EnterPoint(scale))];
    var b := screen(img.button);
    if b.Found? then
      Form(img, scale, account, password, screen, b.center, enter + [Search(img.button), Click(b.center)])
    else
      var s := screen(img.selected);
      var probed := enter + [Search(img.button), Search(img.selected)];
      if s.Found? then Form(img, scale, account, password, screen, s.center, probed)
      else LoginResult(probed, ButtonError(v, img, b, s))
  }

  /** The actions of a login, in order: the optional click that enters the
      login screen, the button search (and its click, or the search of the
      selected variant), then, below a found anchor, the credentials, the
      checkbox search, and on a found checkbox its click and the submit click.
      Nothing is typed when no anchor is found, and nothing follows a failed
      search. */
  lemma LoginActions(v: Variant, img: Images, scale: int, directly: bool, account: string, password: string,
                     screen: Oracle)
    ensures var r := Login(v, img, scale, directly, account, password, screen);
      && |r.trace| >= 2
      && (r.trace[0] == Click(EnterPoint(scale)) <==> !directly)
      && var k := if directly then 0 else 1;
      && |r.trace| >= k + 2
      && r.trace[k] == Search(img.button)
      // primary button found: it is clicked right after its search
      && (screen(img.button).Found? ==> r.trace[k + 1] == Click(screen(img.button).center))
      // primary button missing: the selected variant is searched next and is never clicked
      && (!screen(img.button).Found? ==> r.trace[k + 1] == Search(img.selected))
      // neither found: the attempt stops right there, before any typing
      && (AnchorOf(screen(img.button), screen(img.selected)).None? ==>
            && |r.trace| == k + 2
            && forall i :: 0 <= i < |r.trace| ==> !r.trace[i].TypeText?)
      // a found anchor: credentials at fixed offsets below it, then the checkbox search
      && (AnchorOf(screen(img.button), screen(img.selected)).Some? ==>
            var a := AnchorOf(screen(img.button), screen(img.selected)).value;
            && |r.trace| >= k + 9
            && r.trace[k + 2..k + 9] == CredentialActions(a, scale, account, password) + [Search(img.checkbox)]
            && (!screen(img.checkbox).Found? ==> |r.trace| == k + 9)
            // checkbox found: tick it, then submit below the anchor; these are the last two actions
            && (screen(img.checkbox).Found? ==>
                  && |r.trace| == k + 11
                  && r.trace[k + 9] == Click(screen(img.checkbox).center)
                  && r.trace[k + 10] == Click(Below(a, SubmitDy, scale))))
  {
    var r := Login(v, img, scale, directly, account, password, screen);
    var enter := if directly then [] else [Click(EnterPoint(scale))];
    var b := screen(img.button);
    var sel := screen(img.selected);
    if b.Found? {
      var before := enter + [Search(img.button), Click(b.center)];
      assert r == Form(img, scale, account, password, screen, b.center, before);
      assert r.trace[..|before|] == before;
    } else if sel.Found? {
      var before := enter + [Search(img.button), Search(img.selected)];
      assert r == Form(img, scale, account, password, screen, sel.center, before);
      assert r.trace[..|before|] == before;
    } else {
      assert r.trace == enter + [Search(img.button), Search(img.selected)];
    }
  }

  /** The part of a login after the anchor is known: credentials, checkbox, submit. */
  function Form(img: Images, scale: int, account: string, password: string, screen: Oracle,
                anchor: Point, before: seq<Event>): (r: LoginResult)
    ensures |r.trace| >= |before| + 7
    ensures r.trace[..|before|] == before
    ensures (forall i :: 0 <= i < |before| ==> !before[i].Spawn?) ==> forall i :: 0 <= i < |r.trace| ==> !r.trace[i].Spawn?
    ensures r.trace[|before|..|before| + 7] == CredentialActions(anchor, scale, account, password) + [Search(img.checkbox)]
    ensures !screen(img.checkbox).Found? ==>
      r.outcome == Failed(CheckboxStep, MissKind(screen(img.checkbox)), img.checkbox) && |r.trace| == |before| + 7
    ensures screen(img.checkbox).Found? ==>
      && r.outcome == Success
      && r.trace[|before| + 7..] == [Click(screen(img.checkbox).center), Click(Below(anchor, SubmitDy, scale))]
  {
    var typed := before + CredentialActions(anchor, scale, account, password) + [Search(img.checkbox)];
    var c := screen(img.checkbox);
    if c.Found? then LoginResult(typed + [Click(c.center), Click(Below(anchor, SubmitDy, scale))], Success)
    else LoginResult(typed, Failed(CheckboxStep, MissKind(c), img.checkbox))
  }

  /** `login` of main.py. */
  function CurrentLogin(account: string, password: string, is4k: bool, directly: bool, screen: Oracle): LoginResult
  {
    Login(Current, CurrentImages(is4k, directly), Scale(is4k), directly, account, password, screen)
  }

  /** `login` of auto_login_for_easinote.py. */
  function LegacyLogin(account: string, password: string, is4k: bool, directly: bool, screen: Oracle): LoginResult
  {
    Login(Legacy, LegacyImages(is4k), Scale(is4k), directly, account, password, screen)
  }

  /** With the same images, the two variants emit the same actions and agree
      on the outcome except for the error escaping a double button miss. */
  lemma VariantsDifferOnlyInButtonError(img: Images, scale: int, directly: bool, account: string,
                                        password: string, screen: Oracle)
    ensures Login(Current, img, scale, directly, account, password, screen).trace
         == Login(Legacy, img, scale, directly, account, password, screen).trace
    ensures Login(Current, img, scale, directly, account, password, screen).outcome
         != Login(Legacy, img, scale, directly, account, password, screen).outcome
       ==> && AnchorOf(screen(img.button), screen(img.selected)).None?
           && !screen(img.selected).Raised?
  {
  }

  /** In the older script, logging in directly only leaves out the click
      that enters the login screen: the templates, every later action and
      the outcome are the same. */
  lemma {:induction false} LegacyDirectlyOnlySkipsEnter(account: string, password: string, is4k: bool,
                                                        screen: Oracle)
    ensures LegacyLogin(account, password, is4k, false, screen).trace
         == [Click(EnterPoint(Scale(is4k)))] + LegacyLogin(account, password, is4k, true, screen).trace
    ensures LegacyLogin(account, password, is4k, false, screen).outcome
         == LegacyLogin(account, password, is4k, true, screen).outcome
  {
    var img := LegacyImages(is4k);
    var scale := Scale(is4k);
    var c := Click(EnterPoint(scale));
    var entering := Login(Legacy, img, scale, false, account, password, screen);
    var direct := Login(Legacy, img, scale, true, account, password, screen);
    assert LegacyLogin(account, password, is4k, false, screen) == entering;
    assert LegacyLogin(account, password, is4k, true, screen) == direct;
    var b := screen(img.button);
    var sel := screen(img.selected);
    if b.Found? {
      var before := [Search(img.button), Click(b.center)];
      assert entering == Form(img, scale, account, password, screen, b.center, [c] + before);
      assert direct == Form(img, scale, account, password, screen, b.center, before);
      FormPrefix(img, scale, account, password, screen, b.center, c, before);
    } else if sel.Found? {
      var before := [Search(img.button), Search(img.selected)];
      assert entering == Form(img, scale, account, password, screen, sel.center, [c] + before);
      assert direct == Form(img, scale, account, password, screen, sel.center, before);
      FormPrefix(img, scale, account, password, screen, sel.center, c, before);
    }
  }

  /** An action emitted before the form comes first in the whole trace. */
  lemma FormPrefix(img: Images, scale: int, account: string, password: string, screen: Oracle,
                   anchor: Point, c: Event, before: seq<Event>)
    ensures Form(img, scale, account, password, screen, anchor, [c] + before)
         == LoginResult([c] + Form(img, scale, account, password, screen, anchor, before).trace,
                        Form(img, scale, account, password, screen, anchor, before).outcome)
  {
    var creds := CredentialActions(anchor, scale, account, password) + [Search(img.checkbox)];
    assert [c] + before + CredentialActions(anchor, scale, account, password) + [Search(img.checkbox)]
        == [c] + (before + CredentialActions(anchor, scale, account, password) + [Search(img.checkbox)]);
    var box := screen(img.checkbox);
    if box.Found? {
      var tail := [Click(box.center), Click(Below(anchor, SubmitDy, scale))];
      assert [c] + (before + CredentialActions(anchor, scale, account, password) + [Search(img.checkbox)]) + tail
          == [c] + (before + CredentialActions(anchor, scale, account, password) + [Search(img.checkbox)] + tail);
    }
  }
}

=== FILE: machine.dfy ===
/** The login as an explicit state machine, one transition per step of the login
    (enter the login screen, locate the primary button, fall back to its
    selected variant, enter credentials, locate the checkbox, submit). It is
    an independent reference for `LoginFlow.Login`, and the two are proved to
    produce the same trace and outcome. */
module Machine {
  import opened Screen
  import opened LoginFlow

  datatype State =
    | Init
    | LocatingPrimary
    | LocatingFallback
    | EnteringCredentials(anchor: Point)
    | LocatingCheckbox(anchor: Point)
    | Submitting(anchor: Point, checkbox: Point)
    | Done(outcome: Outcome)

  /** Everything one login run depends on. */
  datatype Setup = Setup(v: Variant, img: Images, scale: int, directly: bool,
                         account: string, password: string, screen: Oracle)

  /** Steps left before a state can finish; every transition lowers it. */
  function Rank(s: State): nat
  {
    match s
    case Init => 6
    case LocatingPrimary => 5
    case LocatingFallback => 4
    case EnteringCredentials(_) => 3
    case LocatingCheckbox(_) => 2
    case Submitting(_, _) => 1
    case Done(_) => 0
  }

  /** One transition: the actions it emits and the state it moves to. */
  function Next(c: Setup, s: State): (t: (seq<Event>, State))
    requires !s.Done?
    ensures Rank(t.1) < Rank(s)
    ensures t.1.EnteringCredentials? ==> s.LocatingPrimary? || s.LocatingFallback?
    // only the primary search clicks on its match before the credentials
    ensures s.LocatingFallback? ==> forall i :: 0 <= i < |t.0| ==> !t.0[i].Click?
  {
    match s
    case Init =>
      (if c.directly then [] else [Click(EnterPoint(c.scale))], LocatingPrimary)
    case LocatingPrimary =>
      var b := c.screen(c.img.button);
      if b.Found? then ([Search(c.img.button), Click(b.center)], EnteringCredentials(b.center))
      else ([Search(c.img.button)], LocatingFallback)
    case LocatingFallback =>
      var sel := c.screen(c.img.selected);
      if sel.Found? then ([Search(c.img.selected)], EnteringCredentials(sel.center))
      else ([Search(c.img.selected)], Done(ButtonError(c.v, c.img, c.screen(c.img.button), sel)))
    case EnteringCredentials(a) =>
      (CredentialActions(a, c.scale, c.account, c.password), LocatingCheckbox(a))
    case LocatingCheckbox(a) =>
      var box := c.screen(c.img.checkbox);
      if box.Found? then ([Search(c.img.checkbox)], Submitting(a, box.center))
      else ([Search(c.img.checkbox)], Done(Failed(CheckboxStep, MissKind(box), c.img.checkbox)))
    case Submitting(a, p) =>
      ([Click(p), Click(Below(a, SubmitDy, c.scale))], Done(Success))
  }

  /** Runs the machine from `s` until it is done. */
  function Run(c: Setup, s: State): (r: LoginResult)
    decreases Rank(s)
  {
    if s.Done? then LoginResult([], s.outcome)
    else
      var t := Next(c, s);
      var rest := Run(c, t.1);
      LoginResult(t.0 + rest.trace, rest.outcome)
  }

  /** Running from a state that is not done emits that state's actions first. */
  lemma RunStep(c: Setup, s: State)
    requires !s.Done?
    ensures Run(c, s) == LoginResult(Next(c, s).0 + Run(c, Next(c, s).1).trace, Run(c, Next(c, s).1).outcome)
  {
  }

  /** From a known anchor the machine emits what `LoginFlow.Form` emits after its prefix. */
  lemma {:induction false} FromCredentials(c: Setup, a: Point, before: seq<Event>)
    ensures before + Run(c, EnteringCredentials(a)).trace
         == Form(c.img, c.scale, c.account, c.password, c.screen, a, before).trace
    ensures Run(c, EnteringCredentials(a)).outcome
         == Form(c.img, c.scale, c.account, c.password, c.screen, a, before).outcome
  {
    var creds := CredentialActions(a, c.scale, c.account, c.password);
    var box := c.screen(c.img.checkbox);
    RunStep(c, EnteringCredentials(a));
    RunStep(c, LocatingCheckbox(a));
    if box.Found? {
      RunStep(c, Submitting(a, box.center));
      var tail := [Click(box.center), Click(Below(a, SubmitDy, c.scale))];
      assert Run(c, Submitting(a, box.center)).trace == tail;
      assert Run(c, LocatingCheckbox(a)).trace == [Search(c.img.checkbox)] + tail;
      assert before + (creds + ([Search(c.img.checkbox)] + tail))
          == before + creds + [Search(c.img.checkbox)] + tail;
    } else {
      assert Run(c, LocatingCheckbox(a)).trace == [Search(c.img.checkbox)];
    }
  }

  /** The state machine and the direct definition agree on every input. */
  lemma MachineMatchesLogin(c: Setup)
    ensures Run(c, Init) == Login(c.v, c.img, c.scale, c.directly, c.account, c.password, c.screen)
  {
    if c.screen(c.img.button).Found? {
      PrimaryFound(c);
    } else if c.screen(c.img.selected).Found? {
      FallbackFound(c);
    } else {
      NoAnchor(c);
    }
  }

  /** The emitted prefix of the login: the optional click on the enter button. */
  function Enter(c: Setup): seq<Event>
  {
    if c.directly then [] else [Click(EnterPoint(c.scale))]
  }

  /** The first two transitions, up to the answer of the primary search. */
  lemma {:induction false} UpToPrimary(c: Setup)
    ensures Run(c, Init).trace == Enter(c) + Run(c, LocatingPrimary).trace
    ensures Run(c, Init).outcome == Run(c, LocatingPrimary).outcome
  {
    RunStep(c, Init);
    assert Next(c, Init) == (Enter(c), LocatingPrimary);
  }

  /** The primary button is found: the machine clicks it and fills the form. */
  lemma {:induction false} PrimaryFound(c: Setup)
    requires c.screen(c.img.button).Found?
    ensures Run(c, Init) == Login(c.v, c.img, c.scale, c.directly, c.account, c.password, c.screen)
  {
    var b := c.screen(c.img.button);
    var probe := [Search(c.img.button), Click(b.center)];
    var before := Enter(c) + probe;
    UpToPrimary(c);
    RunStep(c, LocatingPrimary);
    assert Next(c, LocatingPrimary) == (probe, EnteringCredentials(b.center));
    FromCredentials(c, b.center, before);
    var form := Form(c.img, c.scale, c.account, c.password, c.screen, b.center, before);
    assert Login(c.v, c.img, c.scale, c.directly, c.account, c.password, c.screen) == form;
    assert Enter(c) + (probe + Run(c, EnteringCredentials(b.center)).trace)
        == before + Run(c, EnteringCredentials(b.center)).trace;
  }

  /** Only the selected variant is found: the machine fills the form below it. */
  lemma {:induction false} FallbackFound(c: Setup)
    requires !c.screen(c.img.button).Found? && c.screen(c.img.selected).Found?
    ensures Run(c, Init) == Login(c.v, c.img, c.scale, c.directly, c.account, c.password, c.screen)
  {
    var sel := c.screen(c.img.selected);
    var before := Enter(c) + [Search(c.img.button), Search(c.img.selected)];
    var rest := Run(c, EnteringCredentials(sel.center));
    UpToFallback(c);
    RunStep(c, LocatingFallback);
    assert Next(c, LocatingFallback) == ([Search(c.img.selected)], EnteringCredentials(sel.center));
    assert Run(c, LocatingFallback) == LoginResult([Search(c.img.selected)] + rest.trace, rest.outcome);
    assert Run(c, Init).trace == before + rest.trace;
    FromCredentials(c, sel.center, before);
    assert Login(c.v, c.img, c.scale, c.directly, c.account, c.password, c.screen)
        == Form(c.img, c.scale, c.account, c.password, c.screen, sel.center, before);
  }

  /** The primary button is missing: the machine moves on to the fallback search. */
  lemma {:induction false} UpToFallback(c: Setup)
    requires !c.screen(c.img.button).Found?
    ensures Run(c, Init).trace == Enter(c) + [Search(c.img.button)] + Run(c, LocatingFallback).trace
    ensures Run(c, Init).outcome == Run(c, LocatingFallback).outcome
  {
    UpToPrimary(c);
    RunStep(c, LocatingPrimary);
    assert Next(c, LocatingPrimary) == ([Search(c.img.button)], LocatingFallback);
  }

  /** Neither button image is found: the machine stops with the button error. */
  lemma {:induction false} NoAnchor(c: Setup)
    requires !c.screen(c.img.button).Found? && !c.screen(c.img.selected).Found?
    ensures Run(c, Init) == Login(c.v, c.img, c.scale, c.directly, c.account, c.password, c.screen)
  {
    var b := c.screen(c.img.button);
    var sel := c.screen(c.img.selected);
    var err := ButtonError(c.v, c.img, b, sel);
    UpToFallback(c);
    RunStep(c, LocatingFallback);
    assert Next(c, LocatingFallback) == ([Search(c.img.selected)], Done(err));
    assert Run(c, LocatingFallback) == LoginResult([Search(c.img.selected)], err);
    assert Login(c.v, c.img, c.scale, c.directly, c.account, c.password, c.screen)
        == LoginResult(Enter(c) + [Search(c.img.button), Search(c.img.selected)], err);
    assert Enter(c) + [Search(c.img.button)] + [Search(c.img.selected)]
        == Enter(c) + [Search(c.img.button), Search(c.img.selected)];
  }
}

=== FILE: process.dfy ===
/** Restarting the whiteboard application: the termination command, the
    optional helper-process termination, and the launch, as emitted actions.
    The operating system itself is not modelled; the registry lookup of the
    install path is an input. */
module Process {
  import opened Screen
  import opened Wrappers

  /** Numeric levels of the standard logging library. */
  const NotSet: int := 0
  const Debug: int := 10
  const Info: int := 20
  const Warning: int := 30
  const Error: int := 40
  const Critical: int := 50

  /** The configured path that asks for the install path to be looked up. */
  const AutoPath: string := "auto"
  /** Launch path used when the registry lookup fails. */
  const DefaultLaunchPath: string := @"C:\Program Files (x86)\Seewo\EasiNote5\swenlauncher\swenlauncher.exe"
  const KillPrefix: string := "taskkill /f /im "
  const EchoOff: string := "@echo off\n"
  /** The process terminated when none is configured. */
  const DefaultProcessName: string := "EasiNote.exe"
  /** The auxiliary helper process that may be terminated as well. */
  const AgentProcess: string := "EasiAgent.exe"
  const WindowTitle: string := "希沃白板"

  /** Where the application lives, which process to terminate, and extra
      launch arguments. */
  datatype Descriptor = Descriptor(path: string, processName: string, args: string)

  /** The keyword defaults of `restart_easinote`. */
  function DefaultDescriptor(): (d: Descriptor)
    ensures d.path == AutoPath && d.processName == DefaultProcessName && d.args == ""
  {
    Descriptor(AutoPath, DefaultProcessName, "")
  }

  /** The launch path: any configured path other than "auto" is used as
      is; "auto" takes the registry answer, or the default path when the
      lookup failed (`registry` is None). */
  function ResolvePath(path: string, registry: Option<string>): (p: string)
    ensures path != AutoPath ==> p == path
    ensures path == AutoPath && registry.Some? ==> p == registry.value
    ensures path == AutoPath && registry.None? ==> p == DefaultLaunchPath
  {
    if path == AutoPath then registry.GetOr(DefaultLaunchPath) else path
  }

  /** Command echo is switched off unless the root logger is at DEBUG or INFO. */
  predicate Quiet(level: int)
  {
    level != Debug && level != Info
  }

  /** The termination command of main.py. */
  function KillCommand(level: int, processName: string): (c: string)
    ensures |c| >= |KillPrefix| + |processName|
    ensures c[|c| - |processName|..] == processName
  {
    (if Quiet(level) then EchoOff else "") + KillPrefix + processName
  }

  /** Reads a termination command back: whether echo was switched off, and
      which process it terminates. */
  function ParseKill(c: string): (r: Option<(bool, string)>)
  {
    if |c| >= |EchoOff| && c[..|EchoOff|] == EchoOff then
      var rest := c[|EchoOff|..];
      if |rest| >= |KillPrefix| && rest[..|KillPrefix|] == KillPrefix then Some((true, rest[|KillPrefix|..]))
      else None
    else if |c| >= |KillPrefix| && c[..|KillPrefix|] == KillPrefix then Some((false, c[|KillPrefix|..]))
    else None
  }

  /** The termination command names exactly the configured process, and
      carries the echo prefix exactly when the level is neither DEBUG nor INFO. */
  lemma KillCommandRoundTrip(level: int, processName: string)
    ensures ParseKill(KillCommand(level, processName)) == Some((Quiet(level), processName))
  {
    var c := KillCommand(level, processName);
    Split(KillPrefix, processName);
    if Quiet(level) {
      assert c == EchoOff + (KillPrefix + processName);
      Split(EchoOff, KillPrefix + processName);
    } else {
      assert c == KillPrefix + processName;
      assert c[..|EchoOff|] != EchoOff by {
        assert c[0] == 't' && EchoOff[0] == '@';
      }
    }
  }

  /** Cutting a concatenation at the end of its first part gives back both parts. */
  lemma Split(a: string, b: string)
    ensures (a + b)[..|a|] == a && (a + b)[|a|..] == b
  {
  }

  /** The shell line that launches the application. */
  function LaunchLine(path: string, args: string): string
  {
    "\"" + path + "\" " + args
  }

  /** `restart_easinote` of main.py: terminate the application, optionally
      terminate the helper, then launch the resolved path. */
  function Restart(d: Descriptor, registry: Option<string>, level: int, killAgent: bool): (t: seq<Event>)
    ensures |t| == (if killAgent then 3 else 2)
    ensures t[0] == Shell(KillCommand(level, d.processName))
    ensures killAgent <==> t[1] == Shell(KillPrefix + AgentProcess)
    ensures t[|t| - 1] == Spawn(CommandLine(LaunchLine(ResolvePath(d.path, registry), d.args)))
    ensures Launches(t) == 1
  {
    var agent := if killAgent then [Shell(KillPrefix + AgentProcess)] else [];
    var t := [Shell(KillCommand(level, d.processName))] + agent
      + [Spawn(CommandLine(LaunchLine(ResolvePath(d.path, registry), d.args)))];
    assert !killAgent ==> t[1..] == [t[1]] && t[2..] == [];
    assert killAgent ==> t[1..][1..] == [t[2]] && t[3..] == [];
    t
  }

  /** `restart_easinote` of auto_login_for_easinote.py: no echo prefix, no
      helper termination, and the path launched alone. */
  function LegacyRestart(programPath: string, processName: string, args: string): (t: seq<Event>)
    ensures |t| == 2
    ensures t[0].Shell? && ParseKill(t[0].command) == Some((false, processName))
    ensures t[1] == Spawn(Argv([programPath]))
    ensures Launches(t) == 1
  {
    var kill := KillPrefix + processName;
    assert kill[..|KillPrefix|] == KillPrefix;
    assert kill[..|EchoOff|] != EchoOff by {
      assert kill[0] == 't' && EchoOff[0] == '@';
    }
    assert kill[|KillPrefix|..] == processName;
    var t := [Shell(kill), Spawn(Argv([programPath]))];
    assert t[1..][1..] == [];
    t
  }

  /** The older restart ignores its launch arguments. */
  lemma LegacyRestartIgnoresArgs(programPath: string, processName: string, a: string, b: string)
    ensures LegacyRestart(programPath, processName, a) == LegacyRestart(programPath, processName, b)
  {
  }
}

=== FILE: retry.dfy ===
/** A bounded retry around a whole attempt. Attempt `i` (counting from 0)
    is the i-th full run of the wrapped action; the wrapper stops at the
    first success, or when the number of attempts made reaches its stop
    limit. The first attempt always runs, whatever the limit. */
module Retrying {
  import opened Screen

  /** What one attempt did, and whether it returned normally. */
  datatype Attempt = Attempt(trace: seq<Event>, ok: bool)

  /** The wrapper's result: all actions of all attempts, how many attempts
      ran, and whether the last one succeeded. */
  datatype Report = Report(trace: seq<Event>, attempts: nat, ok: bool)

  /** The most attempts a wrapper with stop limit `stopAfter` makes. */
  function Budget(stopAfter: int): (n: nat)
    ensures n >= 1
    ensures stopAfter >= 1 ==> n == stopAfter
    ensures stopAfter < 1 ==> n == 1
  {
    if stopAfter < 1 then 1 else stopAfter
  }

  /** The traces of attempts `i` up to (not including) `n`, in order. */
  function Traces(run: nat -> Attempt, i: nat, n: nat): seq<Event>
    decreases n - i
  {
    if i >= n then [] else run(i).trace + Traces(run, i + 1, n)
  }

  /** Retrying from attempt `i` on. */
  function RetryFrom(stopAfter: int, run: nat -> Attempt, i: nat): (r: Report)
    requires i < Budget(stopAfter)
    decreases Budget(stopAfter) - i
    ensures i < r.attempts <= Budget(stopAfter)
    ensures r.ok == run(r.attempts - 1).ok
    ensures forall j :: i <= j < r.attempts - 1 ==> !run(j).ok
    ensures !r.ok ==> r.attempts == Budget(stopAfter)
    ensures r.trace == Traces(run, i, r.attempts)
  {
    var a := run(i);
    if a.ok || i + 1 >= stopAfter then
      assert Traces(run, i + 1, i + 1) == [];
      Report(a.trace, i + 1, a.ok)
    else
      var rest := RetryFrom(stopAfter, run, i + 1);
      Report(a.trace + rest.trace, rest.attempts, rest.ok)
  }

  /** The wrapper: attempts run in order until one succeeds or the budget is
      spent; the trace is every attempt's trace in turn. */
  function Retry(stopAfter: int, run: nat -> Attempt): (r: Report)
    ensures 1 <= r.attempts <= Budget(stopAfter)
    ensures r.ok ==> run(r.attempts - 1).ok
    ensures forall j :: 0 <= j < r.attempts - 1 ==> !run(j).ok
    ensures !r.ok <==> r.attempts == Budget(stopAfter) && forall j :: 0 <= j < r.attempts ==> !run(j).ok
    ensures r.trace == Traces(run, 0, r.attempts)
  {
    RetryFrom(stopAfter, run, 0)
  }

  /** When every attempt launches exactly one process, the wrapper launches
      one per attempt made: every retry is a full restart. */
  lemma {:induction false} TracesLaunches(run: nat -> Attempt, i: nat, n: nat)
    requires forall j :: i <= j < n ==> Launches(run(j).trace) == 1
    ensures i <= n ==> Launches(Traces(run, i, n)) == n - i
    decreases n - i
  {
    if i < n {
      assert Traces(run, i, n) == run(i).trace + Traces(run, i + 1, n);
      LaunchesAppend(run(i).trace, Traces(run, i + 1, n));
      TracesLaunches(run, i + 1, n);
    }
  }

  /** When every attempt fails after launching one process, the wrapper
      spends its whole budget, fails, and launches once per attempt. */
  lemma {:induction false} ExhaustedRetry(stopAfter: int, run: nat -> Attempt)
    requires forall j: nat :: !run(j).ok && Launches(run(j).trace) == 1
    ensures !Retry(stopAfter, run).ok
    ensures Retry(stopAfter, run).attempts == Budget(stopAfter)
    ensures Launches(Retry(stopAfter, run).trace) == Budget(stopAfter)
  {
    var r := Retry(stopAfter, run);
    assert !run(r.attempts - 1).ok;
    TracesLaunches(run, 0, r.attempts);
  }

  /** A wrapper that stops after two attempts fails exactly when both the
      first and the second attempt fail. */
  lemma TwoTries(run: nat -> Attempt)
    ensures Retry(2, run).attempts in {1, 2}
    ensures !Retry(2, run).ok <==> Retry(2, run).attempts == 2 && !run(0).ok && !run(1).ok
  {
  }

  /** The trace of attempt `j` sits inside the wrapper's trace, after the
      traces of the earlier attempts. */
  lemma {:induction false} TracesSplit(run: nat -> Attempt, i: nat, j: nat, n: nat)
    requires i <= j < n
    ensures Traces(run, i, n) == Traces(run, i, j) + run(j).trace + Traces(run, j + 1, n)
    decreases j - i
  {
    if i < j {
      TracesSplit(run, i + 1, j, n);
    }
  }
}

=== FILE: screen.dfy ===
/** The desktop as the automation sees it: screen points, the answers of the
    template matcher, and the trace of actions the automation emits. */
module Screen {

  /** A screen coordinate in pixels. */
  datatype Point = Point(x: int, y: int)

  /** The answer of one template search (`locateCenterOnScreen`).
      Depending on the matcher's version, a miss either returns nothing
      (`Missing`) or raises an image-not-found error (`Raised`). */
  datatype Locate = Found(center: Point) | Missing | Raised

  /** The screen at one moment, as far as template matching is concerned:
      the answer the matcher gives for each template image name. */
  type Oracle = string -> Locate

  /** How a process is launched: one shell command line, or an argument vector. */
  datatype Launch = CommandLine(line: string) | Argv(args: seq<string>)

  /** One observable action of the automation, in the order it happens. */
  datatype Event =
    | Click(at: Point)              // mouse click at a point
    | Hotkey(keys: seq<string>)     // a key chord such as ctrl+a
    | Press(key: string)            // a single key press
    | TypeText(text: string)        // typing a string
    | Search(image: string)         // a template search on the screen
    | Focus(title: string)          // bring a window with this title to the front
    | Shell(command: string)        // a shell command (process termination)
    | Spawn(launch: Launch)         // launching a detached process

  /** The point `dy` base pixels below `anchor`, for a display scaled by `scale`. */
  function Below(anchor: Point, dy: int, scale: int): (p: Point)
    ensures p.x == anchor.x
    ensures p.y - anchor.y == dy * scale
  {
    Point(anchor.x, anchor.y + dy * scale)
  }

  /** The number of events in `trace` that launch a process. */
  function Launches(trace: seq<Event>): (n: nat)
    ensures n <= |trace|
    ensures n == 0 <==> forall i :: 0 <= i < |trace| ==> !trace[i].Spawn?
  {
    if trace == [] then 0
    else (if trace[0].Spawn? then 1 else 0) + Launches(trace[1..])
  }

  /** Counting launches distributes over concatenation of traces. */
  lemma {:induction false} LaunchesAppend(a: seq<Event>, b: seq<Event>)
    ensures Launches(a + b) == Launches(a) + Launches(b)
  {
    if a == [] {
      assert a + b == b;
    } else {
      assert (a + b)[1..] == a[1..] + b;
      LaunchesAppend(a[1..], b);
    }
  }
}

=== FILE: settings.dfy ===
/** The typed configuration of config.py: one record per model class, the
    field defaults, the range constraints, and validation of a decoded
    document against them (absent fields take their defaults). */
module Settings {
  import opened Wrappers

  datatype WarningConfig = WarningConfig(enabled: bool, timeout: int)
  datatype BannerConfig = BannerConfig(enabled: bool, text: string, yOffset: int)
  datatype EasiNoteConfig = EasiNoteConfig(path: string, processName: string, args: string)
  datatype TimeoutConfig = TimeoutConfig(terminate: int, launch: int, enterLoginUi: int, switchTab: int)
  datatype LoginConfig = LoginConfig(skipOnce: bool, killAgent: bool, is4k: bool, directly: bool,
                                     easinote: EasiNoteConfig, timeout: TimeoutConfig)
  datatype AppConfig = AppConfig(maxRetries: int, logLevel: string)
  datatype Config = Config(warning: WarningConfig, banner: BannerConfig, login: LoginConfig, app: AppConfig)

  /** The log level names the application configuration accepts. */
  const LogLevels: set<string> := {"DEBUG", "INFO", "WARNING", "ERROR", "CRITICAL"}

  /** Warning timeout: between 5 and 300 seconds. */
  predicate ValidWarning(w: WarningConfig) { 5 <= w.timeout <= 300 }

  /** A settle duration: positive and at most 30 seconds. */
  predicate ValidDelay(x: int) { 0 < x <= 30 }

  predicate ValidTimeouts(t: TimeoutConfig)
  {
    ValidDelay(t.terminate) && ValidDelay(t.launch) && ValidDelay(t.enterLoginUi) && ValidDelay(t.switchTab)
  }

  /** Retries: between 1 and 10; log level: one of the five names. */
  predicate ValidApp(a: AppConfig) { 1 <= a.maxRetries <= 10 && a.logLevel in LogLevels }

  predicate Valid(c: Config)
  {
    ValidWarning(c.warning) && ValidTimeouts(c.login.timeout) && ValidApp(c.app)
  }

  const BannerText: string := "  ⚠️WARNING⚠️  正在运行希沃白板自动登录  请勿触摸一体机"

  /** The configuration every field default gives. */
  function Defaults(): (c: Config)
    ensures Valid(c)
    ensures c.warning == WarningConfig(true, 15)
    ensures c.banner == BannerConfig(true, BannerText, 20)
    ensures c.login.timeout == TimeoutConfig(1, 8, 3, 1)
    ensures c.app == AppConfig(3, "WARNING")
    ensures c.login.easinote == EasiNoteConfig("auto", "EasiNote.exe", "")
    ensures !c.login.skipOnce && c.login.killAgent && !c.login.is4k && !c.login.directly
  {
    Config(
      WarningConfig(true, 15),
      BannerConfig(true, BannerText, 20),
      LoginConfig(false, true, false, false, EasiNoteConfig("auto", "EasiNote.exe", ""), TimeoutConfig(1, 8, 3, 1)),
      AppConfig(3, "WARNING"))
  }

  /** A field of a decoded document: absent, present with a value of the
      field's type, or present with a value of another type. */
  datatype Given<T> = Absent | Value(v: T) | Mistyped

  datatype RawWarning = RawWarning(enabled: Given<bool>, timeout: Given<int>)
  datatype RawBanner = RawBanner(enabled: Given<bool>, text: Given<string>, yOffset: Given<int>)
  datatype RawEasiNote = RawEasiNote(path: Given<string>, processName: Given<string>, args: Given<string>)
  datatype RawTimeouts = RawTimeouts(terminate: Given<int>, launch: Given<int>, enterLoginUi: Given<int>,
                                     switchTab: Given<int>)
  datatype RawLogin = RawLogin(skipOnce: Given<bool>, killAgent: Given<bool>, is4k: Given<bool>,
                               directly: Given<bool>, easinote: Given<RawEasiNote>, timeout: Given<RawTimeouts>)
  datatype RawApp = RawApp(maxRetries: Given<int>, logLevel: Given<string>)
  datatype RawConfig = RawConfig(warning: Given<RawWarning>, banner: Given<RawBanner>, login: Given<RawLogin>,
                                 app: Given<RawApp>)

  /** A given value is acceptable when it has the field's type and meets the constraint. */
  predicate Accepts<T>(g: Given<T>, ok: T -> bool)
  {
    !g.Mistyped? && (g.Value? ==> ok(g.v))
  }

  /** One field: the default when absent, the value when acceptable, a failure otherwise. */
  function Field<T>(g: Given<T>, default: T, ok: T -> bool): (r: Option<T>)
    ensures r.Some? <==> Accepts(g, ok)
    ensures g.Absent? ==> r == Some(default)
    ensures r.Some? && g.Value? ==> r.value == g.v
  {
    match g
    case Absent => Some(default)
    case Value(v) => if ok(v) then Some(v) else None
    case Mistyped => None
  }

  function AnyBool(b: bool): bool { true }
  function AnyInt(i: int): bool { true }
  function AnyString(s: string): bool { true }
  function InWarningRange(i: int): bool { 5 <= i <= 300 }
  function InDelayRange(i: int): bool { ValidDelay(i) }
  function InRetryRange(i: int): bool { 1 <= i <= 10 }
  function IsLevelName(s: string): bool { s in LogLevels }

  function ValidateWarning(r: RawWarning): (w: Option<WarningConfig>)
    ensures w.Some? ==> ValidWarning(w.value)
    ensures w.Some? <==> Accepts(r.enabled, AnyBool) && Accepts(r.timeout, InWarningRange)
    ensures w.Some? ==> w.value == MergeWarning(r)
  {
    var enabled :- Field(r.enabled, true, AnyBool);
    var timeout :- Field(r.timeout, 15, InWarningRange);
    Some(WarningConfig(enabled, timeout))
  }

  function ValidateBanner(r: RawBanner): (b: Option<BannerConfig>)
    ensures b.Some? <==> Accepts(r.enabled, AnyBool) && Accepts(r.text, AnyString) && Accepts(r.yOffset, AnyInt)
    ensures b.Some? ==> b.value == MergeBanner(r)
  {
    var enabled :- Field(r.enabled, true, AnyBool);
    var text :- Field(r.text, BannerText, AnyString);
    var yOffset :- Field(r.yOffset, 20, AnyInt);
    Some(BannerConfig(enabled, text, yOffset))
  }

  function ValidateEasiNote(r: RawEasiNote): (e: Option<EasiNoteConfig>)
    ensures e.Some? <==> Accepts(r.path, AnyString) && Accepts(r.processName, AnyString) && Accepts(r.args, AnyString)
    ensures e.Some? ==> e.value == MergeEasiNote(r)
  {
    var path :- Field(r.path, "auto", AnyString);
    var processName :- Field(r.processName, "EasiNote.exe", AnyString);
    var args :- Field(r.args, "", AnyString);
    Some(EasiNoteConfig(path, processName, args))
  }

  function ValidateTimeouts(r: RawTimeouts): (t: Option<TimeoutConfig>)
    ensures t.Some? ==> ValidTimeouts(t.value)
    ensures t.Some? <==> && Accepts(r.terminate, InDelayRange) && Accepts(r.launch, InDelayRange)
                         && Accepts(r.enterLoginUi, InDelayRange) && Accepts(r.switchTab, InDelayRange)
    ensures t.Some? ==> t.value == MergeTimeouts(r)
  {
    var terminate :- Field(r.terminate, 1, InDelayRange);
    var launch :- Field(r.launch, 8, InDelayRange);
    var enterLoginUi :- Field(r.enterLoginUi, 3, InDelayRange);
    var switchTab :- Field(r.switchTab, 1, InDelayRange);
    Some(TimeoutConfig(terminate, launch, enterLoginUi, switchTab))
  }

  /** A nested model: the all-defaults model when absent, validated when given. */
  function Nested<R, T>(g: Given<R>, default: T, validate: R -> Option<T>): (r: Option<T>)
    ensures g.Absent? ==> r == Some(default)
    ensures g.Value? ==> r == validate(g.v)
    ensures g.Mistyped? ==> r.None?
  {
    match g
    case Absent => Some(default)
    case Value(v) => validate(v)
    case Mistyped => None
  }

  /** A nested model is acceptable when absent, or given and acceptable itself. */
  predicate NestedAccepts<R>(g: Given<R>, ok: R -> bool)
  {
    !g.Mistyped? && (g.Value? ==> ok(g.v))
  }

  predicate AcceptsEasiNote(r: RawEasiNote)
  {
    Accepts(r.path, AnyString) && Accepts(r.processName, AnyString) && Accepts(r.args, AnyString)
  }

  predicate AcceptsTimeouts(r: RawTimeouts)
  {
    && Accepts(r.terminate, InDelayRange) && Accepts(r.launch, InDelayRange)
    && Accepts(r.enterLoginUi, InDelayRange) && Accepts(r.switchTab, InDelayRange)
  }

  predicate AcceptsLogin(r: RawLogin)
  {
    && Accepts(r.skipOnce, AnyBool) && Accepts(r.killAgent, AnyBool)
    && Accepts(r.is4k, AnyBool) && Accepts(r.directly, AnyBool)
    && NestedAccepts(r.easinote, AcceptsEasiNote) && NestedAccepts(r.timeout, AcceptsTimeouts)
  }

  /** Every given value of the document has its field's type and meets its constraint. */
  predicate Acceptable(r: RawConfig)
  {
    && NestedAccepts(r.warning, (w: RawWarning) => Accepts(w.enabled, AnyBool) && Accepts(w.timeout, InWarningRange))
    && NestedAccepts(r.banner, (b: RawBanner) =>
         Accepts(b.enabled, AnyBool) && Accepts(b.text, AnyString) && Accepts(b.yOffset, AnyInt))
    && NestedAccepts(r.login, AcceptsLogin)
    && NestedAccepts(r.app, (a: RawApp) => Accepts(a.maxRetries, InRetryRange) && Accepts(a.logLevel, IsLevelName))
  }

  function ValidateLogin(r: RawLogin): (l: Option<LoginConfig>)
    ensures l.Some? ==> ValidTimeouts(l.value.timeout)
    ensures l.Some? <==> AcceptsLogin(r)
    ensures l.Some? ==> l.value == MergeLogin(r)
  {
    var d := Defaults().login;
    var skipOnce :- Field(r.skipOnce, d.skipOnce, AnyBool);
    var killAgent :- Field(r.killAgent, d.killAgent, AnyBool);
    var is4k :- Field(r.is4k, d.is4k, AnyBool);
    var directly :- Field(r.directly, d.directly, AnyBool);
    var easinote :- Nested(r.easinote, d.easinote, ValidateEasiNote);
    var timeout :- Nested(r.timeout, d.timeout, ValidateTimeouts);
    Some(LoginConfig(skipOnce, killAgent, is4k, directly, easinote, timeout))
  }

  function ValidateApp(r: RawApp): (a: Option<AppConfig>)
    ensures a.Some? ==> ValidApp(a.value)
    ensures a.Some? <==> Accepts(r.maxRetries, InRetryRange) && Accepts(r.logLevel, IsLevelName)
    ensures a.Some? ==> a.value == MergeApp(r)
  {
    var maxRetries :- Field(r.maxRetries, 3, InRetryRange);
    var logLevel :- Field(r.logLevel, "WARNING", IsLevelName);
    Some(AppConfig(maxRetries, logLevel))
  }

  /** Building a `Config` from a decoded document: every accepted
      configuration meets all range constraints. */
  function Validate(r: RawConfig): (c: Option<Config>)
    ensures c.Some? ==> Valid(c.value)
    ensures c.Some? <==> Acceptable(r)
    ensures c.Some? ==> c.value == Merge(r)
  {
    var d := Defaults();
    var warning :- Nested(r.warning, d.warning, ValidateWarning);
    var banner :- Nested(r.banner, d.banner, ValidateBanner);
    var login :- Nested(r.login, d.login, ValidateLogin);
    var app :- Nested(r.app, d.app, ValidateApp);
    Some(Config(warning, banner, login, app))
  }

  /** The value a field ends up with: the given one, else the default. */
  function GivenOr<T>(g: Given<T>, default: T): T
  {
    if g.Value? then g.v else default
  }

  /** A nested model: the given section, or one with no field given. */
  function Section<R, T>(g: Given<R>, merge: R -> T, empty: R): T
  {
    merge(if g.Value? then g.v else empty)
  }

  /** The configuration a document describes, read field by field: every
      given value is kept and every absent field takes its default. This is
      a reference for `Validate`, independent of how it checks values. */
  function Merge(r: RawConfig): Config
  {
    Config(
      Section(r.warning, MergeWarning, RawWarning(Absent, Absent)),
      Section(r.banner, MergeBanner, RawBanner(Absent, Absent, Absent)),
      Section(r.login, MergeLogin, RawLogin(Absent, Absent, Absent, Absent, Absent, Absent)),
      Section(r.app, MergeApp, RawApp(Absent, Absent)))
  }

  function MergeWarning(r: RawWarning): WarningConfig
  {
    WarningConfig(GivenOr(r.enabled, true), GivenOr(r.timeout, 15))
  }

  function MergeBanner(r: RawBanner): BannerConfig
  {
    BannerConfig(GivenOr(r.enabled, true), GivenOr(r.text, BannerText), GivenOr(r.yOffset, 20))
  }

  function MergeEasiNote(r: RawEasiNote): EasiNoteConfig
  {
    EasiNoteConfig(GivenOr(r.path, "auto"), GivenOr(r.processName, "EasiNote.exe"), GivenOr(r.args, ""))
  }

  function MergeTimeouts(r: RawTimeouts): TimeoutConfig
  {
    TimeoutConfig(GivenOr(r.terminate, 1), GivenOr(r.launch, 8), GivenOr(r.enterLoginUi, 3), GivenOr(r.switchTab, 1))
  }

  function MergeLogin(r: RawLogin): LoginConfig
  {
    LoginConfig(GivenOr(r.skipOnce, false), GivenOr(r.killAgent, true), GivenOr(r.is4k, false),
                GivenOr(r.directly, false),
                Section(r.easinote, MergeEasiNote, RawEasiNote(Absent, Absent, Absent)),
                Section(r.timeout, MergeTimeouts, RawTimeouts(Absent, Absent, Absent, Absent)))
  }

  function MergeApp(r: RawApp): AppConfig
  {
    AppConfig(GivenOr(r.maxRetries, 3), GivenOr(r.logLevel, "WARNING"))
  }

  /** A section given in part keeps its given value and defaults the rest:
      `{"app": {"max_retries": 5}}` gives five retries at the WARNING level. */
  lemma PartialSectionKeepsGivenValue()
    ensures Validate(RawConfig(Absent, Absent, Absent, Value(RawApp(Value(5), Absent))))
         == Some(Defaults().(app := AppConfig(5, "WARNING")))
  {
  }

  /** The document a configuration is saved as: every field given. */
  function Dump(c: Config): RawConfig
  {
    RawConfig(Value(DumpWarning(c.warning)), Value(DumpBanner(c.banner)), Value(DumpLogin(c.login)),
              Value(DumpApp(c.app)))
  }

  function DumpWarning(w: WarningConfig): RawWarning
  {
    RawWarning(Value(w.enabled), Value(w.timeout))
  }

  function DumpBanner(b: BannerConfig): RawBanner
  {
    RawBanner(Value(b.enabled), Value(b.text), Value(b.yOffset))
  }

  function DumpEasiNote(e: EasiNoteConfig): RawEasiNote
  {
    RawEasiNote(Value(e.path), Value(e.processName), Value(e.args))
  }

  function DumpTimeouts(t: TimeoutConfig): RawTimeouts
  {
    RawTimeouts(Value(t.terminate), Value(t.launch), Value(t.enterLoginUi), Value(t.switchTab))
  }

  function DumpLogin(l: LoginConfig): RawLogin
  {
    RawLogin(Value(l.skipOnce), Value(l.killAgent), Value(l.is4k), Value(l.directly),
             Value(DumpEasiNote(l.easinote)), Value(DumpTimeouts(l.timeout)))
  }

  function DumpApp(a: AppConfig): RawApp
  {
    RawApp(Value(a.maxRetries), Value(a.logLevel))
  }

  lemma WarningRoundTrip(w: WarningConfig)
    ensures ValidateWarning(DumpWarning(w)) == if ValidWarning(w) then Some(w) else None
  {
  }

  lemma BannerRoundTrip(b: BannerConfig)
    ensures ValidateBanner(DumpBanner(b)) == Some(b)
  {
  }

  lemma EasiNoteRoundTrip(e: EasiNoteConfig)
    ensures ValidateEasiNote(DumpEasiNote(e)) == Some(e)
  {
  }

  lemma TimeoutsRoundTrip(t: TimeoutConfig)
    ensures ValidateTimeouts(DumpTimeouts(t)) == if ValidTimeouts(t) then Some(t) else None
  {
  }

  lemma LoginRoundTrip(l: LoginConfig)
    ensures ValidateLogin(DumpLogin(l)) == if ValidTimeouts(l.timeout) then Some(l) else None
  {
    EasiNoteRoundTrip(l.easinote);
    TimeoutsRoundTrip(l.timeout);
  }

  lemma AppRoundTrip(a: AppConfig)
    ensures ValidateApp(DumpApp(a)) == if ValidApp(a) then Some(a) else None
  {
  }

  /** A saved configuration loads back as itself when it is valid, and is
      rejected when it is not. */
  lemma DumpRoundTrip(c: Config)
    ensures Validate(Dump(c)) == if Valid(c) then Some(c) else None
  {
    WarningRoundTrip(c.warning);
    BannerRoundTrip(c.banner);
    LoginRoundTrip(c.login);
    AppRoundTrip(c.app);
  }

  /** A document without any field gives the defaults. */
  lemma EmptyDocumentGivesDefaults()
    ensures Validate(RawConfig(Absent, Absent, Absent, Absent)) == Some(Defaults())
  {
  }

  /** Out-of-range values are rejected at every bound. */
  lemma RejectsOutOfRange(r: RawConfig, t: int)
    requires r.warning.Value? && r.warning.v.timeout == Value(t) && (t < 5 || t > 300)
    ensures Validate(r).None?
  {
  }
}

=== FILE: startup.dfy ===
/** Start-up of main.py: loading the dictionary configuration (bootstrapping
    a missing file, choosing the log level, consuming the skip-once flag)
    and the `skip` command that sets that flag. */
module Startup {
  import opened Json
  import opened Process

  const LogLevelKey: string := "log_level"
  const SkipKey: string := "skip_once"
  const MaxRetriesKey: string := "max_retries"
  const ShowWarningKey: string := "show_warning"
  const TimeoutKey: string := "timeout"
  const ShowBannerKey: string := "show_banner"
  const EasiNoteKey: string := "easinote"
  const KillAgentKey: string := "kill_seewo_agent"
  const FourKKey: string := "4k_mode"
  const DirectlyKey: string := "login_directly"

  /** The configuration file: missing, not valid JSON, or a decoded document. */
  datatype FileState = Absent | Unparsable | Document(content: JValue)

  /** What loading decides. `Bootstrapped` and `Consumed` end the program
      with exit code 0 after writing `written`; `Crashed` ends it with an
      uncaught exception; `Ready` hands the configuration to the command. */
  datatype Loaded =
    | Bootstrapped(written: JValue)
    | Crashed
    | Consumed(written: JValue)
    | Ready(config: map<string, JValue>, level: int)

  /** ASCII upper-casing of a level name. */
  function Upper(s: string): (u: string)
    ensures |u| == |s|
    ensures forall i :: 0 <= i < |s| ==> ('a' <= s[i] <= 'z' ==> u[i] as int == s[i] as int - 32)
    ensures forall i :: 0 <= i < |s| ==> (!('a' <= s[i] <= 'z') ==> u[i] == s[i])
  {
    seq(|s|, i requires 0 <= i < |s| => if 'a' <= s[i] <= 'z' then (s[i] as int - 32) as char else s[i])
  }

  /** The root logger's level after configuring it with a level name. The
      logging library knows eight names; any other name is rejected and
      the program falls back to WARNING. */
  function LevelOf(name: string): (l: int)
    ensures l in {NotSet, Debug, Info, Warning, Error, Critical}
    ensures Upper(name) == "DEBUG" <==> l == Debug
    ensures Upper(name) == "INFO" <==> l == Info
    ensures Upper(name) in {"CRITICAL", "FATAL"} <==> l == Critical
    ensures Upper(name) == "ERROR" <==> l == Error
    ensures Upper(name) == "NOTSET" <==> l == NotSet
  {
    var u := Upper(name);
    if u == "CRITICAL" || u == "FATAL" then Critical
    else if u == "ERROR" then Error
    else if u == "WARN" || u == "WARNING" then Warning
    else if u == "INFO" then Info
    else if u == "DEBUG" then Debug
    else if u == "NOTSET" then NotSet
    else Warning
  }

  /** A document the loader gets through: an object with a string log level
      and a skip flag. */
  predicate Readable(v: JValue)
  {
    && v.JObj?
    && LogLevelKey in v.fields && v.fields[LogLevelKey].JStr?
    && SkipKey in v.fields
  }

  /** The file main.py writes when the configuration file is missing, as
      written: the default configuration TEXT serialised as a JSON string. */
  function BootstrapAsWritten(defaultText: string): (v: JValue)
    ensures !v.JObj?
  {
    JStr(defaultText)
  }

  /** The file a missing configuration is replaced with in this model: an
      object holding every key main.py reads, with the defaults of the
      default configuration text and, for keys that text lacks, of config.py. */
  function DefaultDocument(): (v: JValue)
    ensures Readable(v) && !Truthy(v.fields[SkipKey])
  {
    JObj(map[
      LogLevelKey := JStr("WARNING"),
      SkipKey := JBool(false),
      MaxRetriesKey := JInt(3),
      ShowWarningKey := JBool(false),
      TimeoutKey := JInt(15),
      ShowBannerKey := JBool(true),
      KillAgentKey := JBool(true),
      FourKKey := JBool(false),
      DirectlyKey := JBool(false),
      EasiNoteKey := JObj(map["path" := JStr(AutoPath), "process_name" := JStr(DefaultProcessName), "args" := JStr("")])
    ])
  }

  /** `load_config` of main.py, with the bootstrap file corrected to
      `DefaultDocument` (see `BootstrapAsWritten`). */
  function LoadConfig(file: FileState): (r: Loaded)
    ensures r.Bootstrapped? <==> file.Absent?
    ensures r.Bootstrapped? ==> r.written == DefaultDocument()
    ensures r.Crashed? <==> file.Unparsable? || (file.Document? && !Readable(file.content))
    // a set skip flag is consumed: persisted as false, and nothing else changes
    ensures r.Consumed? <==> file.Document? && Readable(file.content) && Truthy(file.content.fields[SkipKey])
    ensures r.Consumed? ==>
      && r.written.JObj?
      && r.written.fields.Keys == file.content.fields.Keys
      && r.written.fields[SkipKey] == JBool(false)
      && forall k :: k in file.content.fields && k != SkipKey ==> r.written.fields[k] == file.content.fields[k]
    ensures r.Ready? ==>
      && file == Document(JObj(r.config))
      && SkipKey in r.config && !Truthy(r.config[SkipKey])
      && LogLevelKey in r.config && r.config[LogLevelKey].JStr?
      && r.level == LevelOf(r.config[LogLevelKey].s)
  {
    match file
    case Absent => Bootstrapped(DefaultDocument())
    case Unparsable => Crashed
    case Document(v) =>
      if !Readable(v) then Crashed
      else
        var m := v.fields;
        var level := LevelOf(m[LogLevelKey].s);
        if Truthy(m[SkipKey]) then Consumed(JObj(m[SkipKey := JBool(false)]))
        else Ready(m, level)
  }

  /** `cmd_skip`: the configuration with the skip flag set, every other key unchanged. */
  function Skip(config: map<string, JValue>): (w: JValue)
    ensures w.JObj?
    ensures w.fields.Keys == config.Keys + {SkipKey}
    ensures w.fields[SkipKey] == JBool(true)
    ensures forall k :: k in config && k != SkipKey ==> w.fields[k] == config[k]
  {
    JObj(config[SkipKey := JBool(true)])
  }

  /** Skipping is consumed by exactly one later load: the load after `skip`
      ends the run with the flag persisted as false, and the load after
      that proceeds with the same keys and log level. */
  lemma {:induction false} SkipIsConsumedOnce(m: map<string, JValue>, level: int)
    requires LoadConfig(Document(JObj(m))) == Ready(m, level)
    ensures LoadConfig(Document(Skip(m))) == Consumed(JObj(m[SkipKey := JBool(false)]))
    ensures LoadConfig(Document(JObj(m[SkipKey := JBool(false)]))) == Ready(m[SkipKey := JBool(false)], level)
  {
    var w := Skip(m);
    assert w.fields[SkipKey := JBool(false)] == m[SkipKey := JBool(false)];
    assert m[SkipKey := JBool(false)][LogLevelKey] == m[LogLevelKey] by {
      assert LogLevelKey != SkipKey;
    }
  }

  /** The file written for a missing configuration, as written, makes
      every later start crash: the document is a string, not an object. */
  lemma BootstrapAsWrittenCrashes(defaultText: string)
    ensures LoadConfig(Document(BootstrapAsWritten(defaultText))) == Crashed
  {
  }

  /** The corrected bootstrap file loads, at the WARNING level. */
  lemma DefaultDocumentLoads()
    ensures LoadConfig(Document(DefaultDocument())) == Ready(DefaultDocument().fields, Warning)
  {
    assert Upper("WARNING") == "WARNING";
  }
}

=== FILE: wrappers.dfy ===
/** The optional value used throughout the model for answers that may be absent
    (a registry lookup that failed, a setting that could not be read). */
module Wrappers {

  datatype Option<+T> = None | Some(value: T) {

    /** None stops a `:-` chain. */
    predicate IsFailure() {
      None?
    }

    function PropagateFailure<U>(): Option<U>
      requires None?
    {
      None
    }

    function Extract(): T
      requires Some?
    {
      value
    }

    /** Returns the value held in Some, or `default` for None. */
    function GetOr(default: T): (r: T)
      ensures Some? ==> r == value
      ensures None? ==> r == default
    {
      match this
      case Some(v) => v
      case None => default
    }
  }
}
